=== FILE: README.md ===
# A verified model of an early Game Boy emulator core

This project models, in Dafny, the deterministic core of a young Game Boy
emulator written in Rust, and proves what each piece does:

- **register file**: eight 8-bit registers, SP and PC, the AF/BC/DE/HL pair
  views and the flag bits;
- **CPU**: a cycle-gated fetch/execute loop over seven opcodes, with the
  memory reads the per-instruction trace decoder makes;
- **address router**: the read dispatch over the 16-bit address space;
- **cartridge loader**: header checks, bounds-checked ROM reads and the fixed
  15-byte header title;
- **bank controller**: the NUL-terminated title routine, the controller
  choice from the cartridge-type byte, and the no-banking controller MBC0;
- **timer**: divider, counter, reload value and control byte;
- **PPU**: eleven LCD registers and the mode-gated 8 KiB video RAM;
- **palette decoder**;
- **joypad register**.

Each component is an immutable datatype with pure update functions. Every
point where the emulator aborts (`panic!`, a failed slice or index, a checked
`u8` or `u16` overflow, or an `i32` shift by 32 or more in a debug build) becomes an explicit `Err` of the
shared `Types.Result`, carrying a `Types.Fault` that says what went wrong.

Files, one module each unless noted:

| file | module(s) | models |
|---|---|---|
| types.dfy | Types | byte and word types, `Fault`, `Result`, checked `u16` arithmetic |
| registers.dfy | RegisterFile | `src/registers.rs` |
| cpu.dfy | Cpu | `src/cpu.rs`, the memory reads of `src/decode.rs` |
| mmu.dfy | Mmu | `src/mmu.rs` |
| cartridge.dfy | CartridgeInfo, Cartridge | `src/cartridge_info.rs`, `src/cartridge.rs` |
| mbc.dfy | Mbc | `src/mbc/mod.rs`, `src/mbc/mbc0.rs` |
| timer.dfy | Timer | `src/timer.rs` |
| ppu.dfy | Ppu | `src/ppu.rs` |
| palette.dfy | Palette | `src/palette.rs` |
| joypad.dfy | Joypad | `src/joypad.rs` |

Modelling choices:

- `u8` and `u16` are `bv8` and `bv16`, so wrapping arithmetic wraps as in Rust.
  Where a Rust operator panics on overflow in a debug build, the model fails
  with `ArithmeticOverflow` instead of wrapping. This covers `pc += 1`,
  `pc += 2`, the trace decoder's `pc + 1`, `addr - 1` on HL,
  `cycles_remaining += n` and the video RAM index `addr - 0x8000`.
- The program counter is kept as a bounded integer (`Types.Pc`, 0..0xFFFF),
  and the CPU's cycle counter as `Cpu.CycleCount` (0..0xFF). Their checked
  increments are then integer arithmetic. The values and the failure points
  are those of the `u16` and `u8` fields they stand for.
- The CPU's memory is a parameter, `Cpu.Bus`, with three total functions:
  `read`, `readWide` and `write`, each of which may fail. The router defines
  only the byte read. `read_wide` and `write` are called by the CPU but have
  no definition anywhere in the code, so they stay abstract. No byte order is
  assumed for `read_wide`. `Cpu.RouterBus` plugs the router's read in.
- `usize` counters (`total_cycles`, the timer's `cycles`) are `nat`.
- Shades are an abstract four-value datatype. The display library's ARGB
  numbers are not part of this model.

Where the code departs from the hardware, the model follows the code:

- On the hardware, XOR A (0xAF) clears A and sets the zero flag. The code
  clears A but leaves the flag byte untouched.
- On the hardware, bit 2 of the timer's control byte is an enable bit and
  only bits 0..1 select the rate. The code uses the whole byte as the rate
  selector, so a control byte of 4..7 aborts the step like any other value
  above 3.
- On the hardware, video RAM is open to the CPU during OAM search (mode 2)
  as well as in H-Blank and V-Blank. The code opens it only in H-Blank and
  V-Blank (mode field 0 or 1).
- The divider steps when `cycles % 0xFF == 0` (see Findings).
- The router reads every region above 0x7FFF as 0. Video RAM, work RAM, I/O
  and high RAM are not wired in yet.

## Model

| member | source | states |
|---|---|---|
| Types.CheckedAdd | src/cpu.rs:59 | a `u16` increment succeeds exactly when the sum stays within 0xFFFF, and is then the plain sum; otherwise it is the overflow fault |
| Types.CheckedSub | src/cpu.rs:101 | a `u16` decrement succeeds exactly when it does not go below 0, and is then the difference; otherwise it is the overflow fault |
| RegisterFile.New | src/registers.rs:22-36 | the initial register file reads 0 through every pair view, F is 0 so every flag reads clear, and SP and PC are 0 |
| RegisterFile.PairSplit | src/registers.rs:42-52 | the high and low bytes of a packed pair are the two bytes it was packed from |
| RegisterFile.SplitPair | src/registers.rs:63-76 | packing the high and low byte of a word rebuilds the word, so a pair setter loses nothing |
| RegisterFile.GetAF | src/registers.rs:38-40 | AF shows A in its high byte and only the flag byte's high nibble in its low byte; its low nibble is always 0 |
| RegisterFile.GetBC | src/registers.rs:42-44 | BC's high byte is B and its low byte is C |
| RegisterFile.GetDE | src/registers.rs:46-48 | DE's high byte is D and its low byte is E |
| RegisterFile.GetHL | src/registers.rs:50-52 | HL's high byte is H and its low byte is L |
| RegisterFile.SetF | src/registers.rs:54-56 | only F changes; it keeps the high nibble of the value and zeroes the low one, and AF then reads A over `value & 0xF0` |
| RegisterFile.SetAF | src/registers.rs:58-61 | only A and F change, and AF then reads `value & 0xFFF0` |
| RegisterFile.SetBC | src/registers.rs:63-66 | only B and C change, and BC then reads the value written |
| RegisterFile.SetDE | src/registers.rs:68-71 | only D and E change, and DE then reads the value written |
| RegisterFile.SetHL | src/registers.rs:73-76 | only H and L change, and HL then reads the value written |
| RegisterFile.PairSetGet | src/registers.rs:42-52 | writing BC, DE or HL with the value it already reads leaves the registers as they were |
| RegisterFile.GetFlag | src/registers.rs:79-82 | a flag reads set exactly when its single-bit mask is present in F |
| RegisterFile.SetFlag | src/registers.rs:84-91 | setting or clearing a flag changes only F, and only that flag's bit of F; reading the flag back gives the value set |
| RegisterFile.SetFlagKeepsOtherFlags | src/registers.rs:14-19 | the four masks are distinct bits, so changing one flag leaves the other three as they read before |
| RegisterFile.CarryInvisibleInAF | src/registers.rs:18 | the carry mask 0x08 lies in the nibble AF drops: changing C never changes AF, and a set carry is lost by writing AF back |
| RegisterFile.SetFlagHardware | src/registers.rs:14-19 | with the masks in bits 7..4, a flag change moves only that flag, keeps the low nibble zero, and survives writing AF back |
| Cpu.New | src/cpu.rs:17-26 | a new CPU starts from the zeroed register file with no cycles counted and is ready to fetch |
| Cpu.FetchImm8 | src/cpu.rs:78-83 | succeeds exactly when the byte at pc can be read and pc can move on by one; returns that byte and changes nothing but pc, which moves on by one |
| Cpu.FetchImm16 | src/cpu.rs:85-90 | succeeds exactly when the word at pc can be read and pc can move on by two; returns that word and changes nothing but pc, which moves on by two |
| Cpu.AddCycles | src/cpu.rs:95 | `cycles_remaining += n` succeeds exactly when the byte does not overflow, sets exactly `n` from zero, and changes nothing else |
| Cpu.Execute | src/cpu.rs:92-146 | an opcode outside the seven is fatal and reports the pc; a successful instruction is one of the seven, keeps SP, F and the cycle total, writes memory only for 0x32, whose failed write is the instruction's fault, and from zero remaining books exactly its cost |
| Cpu.TraceOperand | src/decode.rs:4-170 | the trace decoder reads nothing for most opcodes, the byte at pc + 1 for eleven and the word at pc + 1 for six; with pc at 0xFFFF those reads overflow, and a failing read is the cycle's fault |
| Cpu.TraceShowsFetchedOperand | src/decode.rs:11-132 | for the implemented opcodes the trace reads exactly the operand the instruction then fetches, and fails exactly when that fetch's read would |
| Cpu.DoCycle | src/cpu.rs:47-68 | with cycles remaining a call only counts down by one and changes nothing else; a fetching call fails with the opcode read's fault when that read fails, and with the overflow fault when pc is 0xFFFF; a successful one leaves the CPU busy, with the total grown by the cycles the instruction booked, and keeps SP |
| Cpu.DoCycleExecutes | src/cpu.rs:47-63 | a fetching call reads the opcode at pc, makes the trace decoder's reads, executes the opcode with pc one past it, and adds the booked cycles to the total |
| Cpu.FetchesExactlyWhenIdle | src/cpu.rs:70-72 | a call fetches and counts a new instruction exactly when no cycles remain; otherwise it succeeds and leaves the total alone |
| Cpu.FetchAfterOpcode | src/cpu.rs:78-83 | the immediate byte is the one after the opcode, and pc ends two past the opcode |
| Cpu.FetchWideAfterOpcode | src/cpu.rs:85-90 | the immediate word is read at the address after the opcode, and pc ends three past the opcode |
| Cpu.StepNop | src/cpu.rs:94-96 | NOP moves pc on by one and books and counts 4 cycles; nothing else changes |
| Cpu.StepLoadB | src/cpu.rs:105-111 | LD B, d8 puts the byte after the opcode in B, moves pc on by two and books 8 cycles; nothing else changes |
| Cpu.StepLoadC | src/cpu.rs:112-118 | LD C, d8 puts the byte after the opcode in C, moves pc on by two and books 8 cycles; nothing else changes |
| Cpu.StepLoadHL | src/cpu.rs:119-125 | LD HL, d16 makes HL the word after the opcode, moves pc on by three and books 12 cycles |
| Cpu.StepJump | src/cpu.rs:131-137 | JP a16 makes pc the word after the opcode and books 16 cycles; no other register changes |
| Cpu.StepXorA | src/cpu.rs:126-130 | XOR A clears A, leaves F as it was, moves pc on by one and books 4 cycles |
| Cpu.StepStoreDecrement | src/cpu.rs:97-104 | LD [HL-], A writes A at HL, then HL steps down by one and 8 cycles are booked; with HL at 0 the step is fatal after the write |
| Cpu.StepUnimplemented | src/cpu.rs:47-144 | any other opcode is fatal and reports the pc just past it, unless the trace decoder's read of its operand fails first, whose fault is then reported; an opcode the decoder shows no operand for always reports the opcode |
| Cpu.CountDown | src/cpu.rs:64-67 | with k cycles remaining, the next n ≤ k calls succeed, change nothing but the counter, and leave k − n remaining |
| Cpu.RunAppend | src/cpu.rs:47-68 | running m calls and then n calls is running m + n calls, with a fault stopping the run |
| Cpu.InstructionOccupiesCostPlusOne | src/cpu.rs:47-71 | an instruction booking N cycles occupies N + 1 calls: the CPU is busy after each of the first N and is ready to fetch again after N + 1, with the state the instruction left |
| Cpu.RouterBus | src/cpu.rs:74-76 | the CPU's byte read on the router is the router's read at every address |
| Cpu.FirstCycleOnNopImage | src/cpu.rs:47-63 | a new CPU on a loaded image whose first byte is 0x00 executes NOP through the router: pc 1, 4 cycles booked and counted; with a ROM-size byte below 32 the loader as written accepts the same image |
| Mmu.New | src/mmu.rs:10-14 | building the router succeeds exactly when the corrected loader accepts the image and keeps the image; it reports the same fault as the loader as written, and agrees with it on every accepted image whose ROM-size byte is below 32 |
| Mmu.Read | src/mmu.rs:16-32 | 0x0000..0x3FFF (0x3FFF included) reads the cartridge, 0x4000..0x7FFF is fatal, and everything from 0x8000 up reads 0 |
| Mmu.ReadFailsOnlyThere | src/mmu.rs:17-31 | a read fails exactly in the banked window or past the end of the image in the fixed bank, so the final out-of-range arm is unreachable |
| Mmu.ReadShowsImage | src/mmu.rs:18 | through the router, the fixed bank shows the loaded image byte for byte |
| CartridgeInfo.ExtractTitle | src/cartridge_info.rs:12-20 | the title succeeds exactly on an image of at least 0x143 bytes and has 15 characters, the i-th being the byte at 0x134 + i, NUL bytes included |
| CartridgeInfo.New | src/cartridge_info.rs:6-10 | the header information holds the extracted title and fails exactly when the extraction fails |
| CartridgeInfo.TitleDependsOnlyOnHeader | src/cartridge_info.rs:15 | two images that agree on bytes 0x134..0x142 get the same title |
| Cartridge.New | src/cartridge.rs:16-45 | loading succeeds exactly on an image of more than 0x148 bytes whose byte 0x143 is 0x00 or 0x80; another flag is reported as such; the image is kept as given and the title is the header's |
| Cartridge.NewAsWritten | src/cartridge.rs:16-45 | the loader with the ROM-size diagnostic fails as `Cartridge.New` on every image that one rejects, aborts in the shift on an accepted image whose size byte is 32 or more, and agrees with `Cartridge.New` otherwise |
| Cartridge.RomSizeDiagnosticAborts | src/cartridge.rs:36 | an otherwise accepted image with a ROM-size byte of 32 or more aborts in the diagnostic's shift |
| Cartridge.TypeAndSizeOnlyReported | src/cartridge.rs:29-37 | changing the cartridge-type or ROM-size byte never changes whether loading succeeds |
| Cartridge.Read | src/cartridge.rs:47-52 | a read succeeds exactly below the image's length, returns the image byte there, and otherwise reports the address |
| Mbc.ReadRom | src/mbc/mbc0.rs:16-21 | a ROM read succeeds exactly below the image's length and returns the image byte; past it, it reports the address |
| Mbc.ReadRam | src/mbc/mbc0.rs:23-25 | MBC0 has no RAM: every RAM read gives 0 |
| Mbc.WriteRom | src/mbc/mbc0.rs:27-29 | a ROM write leaves every later ROM and RAM read as it was |
| Mbc.WriteRam | src/mbc/mbc0.rs:31-33 | a RAM write leaves every later ROM and RAM read as it was |
| Mbc.WritesAreInvisible | src/mbc/mbc0.rs:23-33 | RAM always reads 0, and no sequence of ROM or RAM writes changes the controller or any later read |
| Mbc.TitleByteNonZero | src/mbc/mod.rs:24-29 | every byte a title copies is non-zero |
| Mbc.RomNameUnique | src/mbc/mod.rs:13-32 | at most one string is an image's title, so the title routine's result is fully determined by the image |
| Mbc.TitleAddress | src/mbc/mod.rs:25 | the 16-bit address 0x134 + i of a title byte never wraps |
| Mbc.RomName | src/mbc/mod.rs:13-32 | the title routine fails exactly when the flag byte 0x143 is missing; otherwise it returns the bytes from 0x134 up to the first zero, at most 11 (flag 0x80 or 0xC0) or 16 of them, with no NUL inside |
| Mbc.LoadCartridge | src/mbc/mod.rs:35-51 | loading picks MBC0 holding the unchanged image exactly when byte 0x147 exists and is 0x00; any other type byte is reported as unsupported |
| Mbc.LoadedControllerReadsImage | src/mbc/mbc0.rs:16-21 | the controller the loader picks reads every address exactly as the router's cartridge does, faults included |
| Timer.New | src/timer.rs:10-18 | all four registers and the cycle count start at 0, so the counter's period is 1024 |
| Timer.Read | src/timer.rs:20-28 | 0xFF04 reads the divider, 0xFF05 the counter, 0xFF06 the reload value and 0xFF07 the control byte; any other address is fatal and reported |
| Timer.Write | src/timer.rs:30-38 | a write succeeds exactly at 0xFF04..0xFF07, reports the address elsewhere, and never touches the cycle count |
| Timer.WriteThenRead | src/timer.rs:20-38 | after a write the divider reads 0 whatever was written, the other three read the value written, and every other register reads as before |
| Timer.TacCycles | src/timer.rs:59-67 | the counter's period is 1024, 16, 64 and 256 for control bytes 0, 1, 2 and 3, and any other control byte is the invalid-control fault |
| Timer.Step | src/timer.rs:40-57 | a step succeeds exactly for a control byte of at most 3, counts one cycle, keeps TMA and TAC, moves the divider exactly when the count is a multiple of its period, and steps the counter, reloading from TMA at 0xFF, exactly at multiples of the counter period |
| Timer.DoCycles | src/timer.rs:40-57 | the step as written: the divider moves exactly when the cycle count is a multiple of 0xFF |
| Timer.DoCyclesCorrected | src/timer.rs:41-44 | the step with the divider moving exactly when the cycle count is a multiple of 256 |
| Timer.RunDivider | src/timer.rs:40-57 | over n steps with a valid control byte nothing fails, the count grows by n, TMA and TAC are kept, and the divider has been incremented once per multiple of its period passed |
| Timer.TicksAppend | src/timer.rs:41-44 | divider steps over two consecutive windows add up |
| Timer.NoTicksInside | src/timer.rs:41-44 | strictly between two multiples of the period the divider does not move |
| Timer.DividerOncePer256 | src/timer.rs:41-44 | with a 256-cycle period, every aligned window of 256 cycles moves the divider exactly once |
| Timer.TwoTicksAsWritten | src/timer.rs:41-44 | with the 0xFF period, a 256-cycle window starting on a multiple of 0xFF moves the divider twice |
| Timer.DividerTwiceInFirst256 | src/timer.rs:41-44 | from a fresh count, 256 cycles leave the divider at 2 as written and at 1 with the hardware period |
| Ppu.New | src/ppu.rs:28-43 | power-on values: LCDC 0x91, BGP 0xFC, OBP0/OBP1 0xFF, the rest 0, mode H-Blank so video RAM is accessible, and all video RAM zero |
| Ppu.LcdMode | src/ppu.rs:117-125 | the mode is the one whose code is `stat & 3`; the panic arm is unreachable |
| Ppu.LcdModeOnlyLowBits | src/ppu.rs:117-125 | the mode depends only on the two low status bits and is the only mode with that code |
| Ppu.IsVramAccessible | src/ppu.rs:79-87 | video RAM is accessible exactly when `stat & 3` is 0 or 1 |
| Ppu.VramIndex | src/ppu.rs:63-70 | an address has a video RAM index exactly inside 0x8000..0x9FFF, and the index is the address minus 0x8000 |
| Ppu.ReadVram | src/ppu.rs:63-70 | inaccessible video RAM reads 0xFF; accessible, a read succeeds exactly inside 0x8000..0x9FFF and returns the byte there; below it underflows and above it indexes past the end |
| Ppu.WriteVram | src/ppu.rs:72-77 | inaccessible, a write changes nothing; accessible, it succeeds exactly inside 0x8000..0x9FFF with the same faults as a read, and changes only video RAM |
| Ppu.WriteVramStores | src/ppu.rs:72-77 | an accessible write replaces exactly the byte at `addr - 0x8000` and leaves the memory accessible |
| Ppu.VramWriteThenRead | src/ppu.rs:63-77 | a byte written to accessible video RAM is read back |
| Ppu.VramWriteKeepsOthers | src/ppu.rs:63-77 | a video RAM write leaves every other video RAM address reading as before |
| Ppu.ReadReg | src/ppu.rs:45-61 | each of the eleven register addresses reads its own field (0xFF40 LCDC, 0xFF41 STAT, … 0xFF4B WX), video RAM addresses read through the video RAM path, and any other address is fatal |
| Ppu.WriteReg | src/ppu.rs:99-115 | a write succeeds exactly at the eleven registers (not 0xFF46, not video RAM), reports the address otherwise, and never changes video RAM |
| Ppu.RegisterWriteThenRead | src/ppu.rs:45-115 | a register reads back the value written, and every other register reads as before |
| Palette.ToGrayshade | src/palette.rs:26-34 | codes 0..3 decode to the shade with that code, lightest first; anything larger is fatal |
| Palette.New | src/palette.rs:9-24 | the palette keeps its register, and colour i is the shade coded by bits 2i..2i+1; decoding never fails |
| Palette.DecodeEncode | src/palette.rs:9-24 | encoding a decoded palette gives back the register, so decoding loses nothing |
| Palette.EncodeDecode | src/palette.rs:9-24 | every choice of four shades is what some register decodes to |
| Palette.ToArgb | src/palette.rs:36-46 | colours 0..3 give the palette's shade for that colour; 4 and above index past the table |
| Palette.BackgroundPaletteAtPowerOn | src/palette.rs:10-22 | 0xFC decodes to white, black, black, black |
| Joypad.New | src/joypad.rs:19-23 | the register starts at 0 |
| Joypad.Read | src/joypad.rs:25-27 | a read shows the whole register: its bits 5 and 4 are clear exactly when the button or direction group is selected |
| Joypad.ButtonSelectionFollowsWrite | src/joypad.rs:51-53 | the button group is selected exactly when the last byte written had bit 5 clear, and pulling a key line low never changes that |
| Joypad.DirectionSelectionFollowsWrite | src/joypad.rs:55-57 | the direction group is selected exactly when the last byte written had bit 4 clear, and pulling a key line low never changes that |
| Joypad.Write | src/joypad.rs:29-31 | a write keeps bits 3..7 of the value and clears bits 0..2 |
| Joypad.WriteThenRead | src/joypad.rs:25-31 | a read after a write returns the value with its three low bits cleared, and writing back what was read changes nothing |
| Joypad.SetKey | src/joypad.rs:59-68 | the key's line ends clear and every other bit is unchanged |
| Joypad.SetKeyIgnoresPressed | src/joypad.rs:59-68 | pressing and releasing a key have the same effect, and the high nibble never moves |
| Joypad.DoCycle | src/joypad.rs:33-57 | with either group selected, bits 0..3 are cleared; with neither, nothing changes; bits 4..7 are always kept |
| Joypad.DoCycleIdempotent | src/joypad.rs:33-49 | a second cycle changes nothing, and the key state passed in never matters |

## Left out

- The text of the trace line: string formatting with no effect on state.
  Only the decoder's memory reads are modelled (`Cpu.TraceOperand`), since
  they can stop the machine first.
- The display window wrapper: it is a foreign library with a busy-wait loop.
- The program entry point and its driving loop.
- The unused two-entry instruction table.
- File reading: loaders take the image as a byte sequence instead of a path.
- Console output: printing, the register dump and the video RAM dump.
- `read_wide` and `write` on the router: the code calls them but never defines
  them. They are the abstract `Bus.readWide` and `Bus.write`.
- The display library's colour values (`u32` ARGB): `Palette.ToArgb` returns
  the abstract shade.
- The window's key state: `Joypad.DoCycle` takes it as a parameter that it
  never consults, because the emulator's `set_key` ignores it.
- MBC0's `new` and `Mbc` dynamic dispatch: the one controller is a datatype
  constructor.
- Mmu.New: builds the router on the corrected loader `Cartridge.New`. An
  otherwise valid image whose ROM-size byte is 32 or more is accepted,
  where the program aborts in the loader's size diagnostic (see Findings).
  The contract states that this is the only difference from building on
  `Cartridge.NewAsWritten`.
- Cartridge.New: a short image is reported as one `OutOfBounds` fault
  with the first index that fails. The emulator's slice and index panics
  differ from each other only in their messages.
- Timer.DoCycles: states only the divider; the counter behaviour it shares
  is stated once, on `Timer.Step`.

## Findings

| source | as written | input that shows it | evidently intended | confidence | as-written member | corrected member |
|---|---|---|---|---|---|---|
| src/registers.rs:14-19 | flag masks Z=0x40, N=0x20, H=0x10, C=0x08, one bit below the hardware layout | set C, then write AF back with its own value: C reads false | Z=0x80, N=0x40, H=0x20, C=0x10, the high nibble AF keeps | high; not executed | RegisterFile.SetFlag, RegisterFile.CarryInvisibleInAF | RegisterFile.SetFlagHardware |
| src/timer.rs:41-44 | the divider steps when `cycles % 0xFF == 0` | a fresh timer run for 256 cycles: the divider reads 2 | a step every 256 cycles, reading 1 after 256 | high; not executed | Timer.DoCycles, Timer.DividerTwiceInFirst256 | Timer.DoCyclesCorrected, Timer.DividerOncePer256 |
| src/cartridge.rs:34-37 | the ROM-size report computes `0x8000 << n` on an `i32` (the literal has no suffix), and a debug build aborts on a shift amount n ≥ 32 | a valid header with ROM-size byte 0x52: the loader aborts | the size byte only reported, never fatal | medium; not executed | Cartridge.NewAsWritten, Cartridge.RomSizeDiagnosticAborts | Cartridge.New, Cartridge.TypeAndSizeOnlyReported |

=== FILE: cartridge.dfy ===
/** The cartridge header's informational title: the fifteen bytes from
    0x134 up to (not including) the compatibility flag at 0x143, each byte
    taken as the character with that code. */
module CartridgeInfo {
  import opened Types

  const TITLE_START: int := 0x134
  const TITLE_END: int := 0x143

  datatype CartridgeInfo = CartridgeInfo(title: string)

  /** The title is a fixed-length copy of the header window; NUL bytes are
      copied, not trimmed. The slice fails on an image that ends before
      0x143. */
  function ExtractTitle(romData: seq<u8>): (r: Result<string>)
    ensures r.Ok? <==> |romData| >= TITLE_END
    ensures r.Err? ==> r.fault == OutOfBounds(TITLE_END)
    ensures r.Ok? ==> |r.value| == TITLE_END - TITLE_START == 15
    ensures r.Ok? ==> forall i :: 0 <= i < |r.value| ==> r.value[i] == romData[TITLE_START + i] as char
  {
    if |romData| < TITLE_END then Err(OutOfBounds(TITLE_END))
    else Ok(seq(TITLE_END - TITLE_START, i requires 0 <= i < TITLE_END - TITLE_START =>
                  romData[TITLE_START + i] as char))
  }

  function New(romData: seq<u8>): (r: Result<CartridgeInfo>)
    ensures r.Ok? <==> ExtractTitle(romData).Ok?
    ensures r.Ok? ==> r.value.title == ExtractTitle(romData).value
  {
    var title :- ExtractTitle(romData);
    Ok(CartridgeInfo(title))
  }

  /** Two images that agree on bytes 0x134..0x142 have the same title. */
  lemma TitleDependsOnlyOnHeader(x: seq<u8>, y: seq<u8>)
    requires |x| >= TITLE_END && |y| >= TITLE_END
    requires x[TITLE_START..TITLE_END] == y[TITLE_START..TITLE_END]
    ensures ExtractTitle(x) == ExtractTitle(y)
  {
    var tx, ty := ExtractTitle(x).value, ExtractTitle(y).value;
    forall i | 0 <= i < 15
      ensures tx[i] == ty[i]
    {
      assert x[TITLE_START + i] == x[TITLE_START..TITLE_END][i];
      assert y[TITLE_START + i] == y[TITLE_START..TITLE_END][i];
    }
    assert tx == ty;
  }
}

/** The cartridge as the address router holds it: the raw image plus the
    header information, built once from the image's bytes. */
module Cartridge {
  import opened Types
  import CartridgeInfo

  const GGB_FLAG_IDX: int := 0x143
  const CARTRIDGE_TYPE_IDX: int := 0x147
  const ROM_SIZE_IDX: int := 0x148

  datatype Cartridge = Cartridge(romData: seq<u8>, info: CartridgeInfo.CartridgeInfo)

  /** Header checks in the order the loader performs them: title slice,
      compatibility flag (0x00 or 0x80, anything else is fatal), then the
      cartridge-type and ROM-size bytes, which are only reported; reading
      them needs an image of at least 0x149 bytes. */
  function New(data: seq<u8>): (r: Result<Cartridge>)
    ensures r.Ok? <==> |data| > ROM_SIZE_IDX && (data[GGB_FLAG_IDX] == 0x00 || data[GGB_FLAG_IDX] == 0x80)
    ensures |data| > GGB_FLAG_IDX && data[GGB_FLAG_IDX] != 0x00 && data[GGB_FLAG_IDX] != 0x80 ==>
              r == Err(InvalidCgbFlag(data[GGB_FLAG_IDX]))
    ensures r.Ok? ==> r.value.romData == data
    ensures r.Ok? ==> r.value.info.title == CartridgeInfo.ExtractTitle(data).value
  {
    var info :- CartridgeInfo.New(data);
    if |data| <= GGB_FLAG_IDX then Err(OutOfBounds(GGB_FLAG_IDX))
    else if data[GGB_FLAG_IDX] != 0x00 && data[GGB_FLAG_IDX] != 0x80 then Err(InvalidCgbFlag(data[GGB_FLAG_IDX]))
    else if |data| <= CARTRIDGE_TYPE_IDX then Err(OutOfBounds(CARTRIDGE_TYPE_IDX))
    else if |data| <= ROM_SIZE_IDX then Err(OutOfBounds(ROM_SIZE_IDX))
    else Ok(Cartridge(data, info))
  }

  /** The loader as written, including the diagnostic for a non-zero ROM-size
      byte `n`, which computes `(0x8000 << n) / 0x400` on a 32-bit integer:
      in a debug build a shift by 32 or more aborts. */
  function NewAsWritten(data: seq<u8>): (r: Result<Cartridge>)
    ensures New(data).Err? ==> r == New(data)
    ensures New(data).Ok? && data[ROM_SIZE_IDX] < 32 ==> r == New(data)
    ensures New(data).Ok? && data[ROM_SIZE_IDX] >= 32 ==> r == Err(RomSizeShiftOverflow(data[ROM_SIZE_IDX]))
  {
    var c :- New(data);
    var n := data[ROM_SIZE_IDX];
    if n != 0x00 && n >= 32 then Err(RomSizeShiftOverflow(n)) else Ok(c)
  }

  /** A header that the loader accepts except for a ROM-size byte of 32 or
      more (0x52, 0x53 and 0x54 are sizes real cartridges declare) aborts in
      the as-written loader. */
  lemma RomSizeDiagnosticAborts(data: seq<u8>)
    requires New(data).Ok? && data[ROM_SIZE_IDX] >= 32
    ensures NewAsWritten(data) == Err(RomSizeShiftOverflow(data[ROM_SIZE_IDX]))
  {
  }

  /** The loader's verdict does not depend on the cartridge-type or ROM-size
      bytes: changing them never turns an accepted image into a fault or
      the other way round. */
  lemma TypeAndSizeOnlyReported(data: seq<u8>, kind: u8, size: u8)
    requires |data| > ROM_SIZE_IDX
    ensures New(data[CARTRIDGE_TYPE_IDX := kind][ROM_SIZE_IDX := size]).Ok? == New(data).Ok?
  {
  }

  /** `rom_data.get(addr)`: the byte at `addr`, or a fault past the end. */
  function Read(c: Cartridge, addr: u16): (r: Result<u8>)
    ensures r.Ok? <==> (addr as int) < |c.romData|
    ensures r.Ok? ==> r.value == c.romData[addr as int]
    ensures r.Err? ==> r.fault == OutOfBounds(addr as int)
  {
    if (addr as int) < |c.romData| then Ok(c.romData[addr as int]) else Err(OutOfBounds(addr as int))
  }
}

=== FILE: cpu.dfy ===
/** The CPU's cycle-gated fetch/execute loop. Each call of `DoCycle` is one
    machine cycle: when no cycles of the previous instruction remain it
    fetches, decodes and executes the next opcode and books its cost;
    otherwise it only counts down. Seven opcodes are implemented.

    Memory is a collaborator the CPU is parameterised by (`Bus`): a byte
    read, a little-or-big-endian 16-bit read, and a byte write, each of which
    may fail. The CPU only reads at program-counter values, so the two reads
    take the address as a `Pc`; the write takes the `u16` held in HL. The
    address router supplies the byte read (see `RouterBus`); the other two
    have no definition in the router and stay abstract. */
module Cpu {
  import opened Types
  import opened RegisterFile
  import Mmu
  import Cartridge

  datatype Bus<!M> = Bus(
    read: (M, Pc) -> Result<u8>,
    readWide: (M, Pc) -> Result<u16>,
    write: (M, u16, u8) -> Result<M>)

  /** The `u8` count of cycles the current instruction still occupies, kept
      as a bounded integer. */
  type CycleCount = n: nat | n <= 0xFF

  datatype Cpu<M> = Cpu(regs: Registers, mem: M, totalCycles: nat, cyclesRemaining: CycleCount)

  /** Zeroed registers, no cycles booked: the first `DoCycle` fetches. */
  function New<M>(mem: M): (s: Cpu<M>)
    ensures s.regs == RegisterFile.New() && s.mem == mem
    ensures s.totalCycles == 0 && ShouldLoadNextInstr(s)
  {
    Cpu(RegisterFile.New(), mem, 0, 0)
  }

  predicate ShouldLoadNextInstr<M>(s: Cpu<M>) {
    s.cyclesRemaining == 0
  }

  /** The implemented opcodes. */
  predicate Implemented(opcode: u8) {
    opcode in {0x00, 0x06, 0x0E, 0x21, 0x32, 0xAF, 0xC3}
  }

  /** The cycles each arm of `execute_instruction` books for its opcode. */
  function Cost(opcode: u8): CycleCount
    requires Implemented(opcode)
  {
    if opcode == 0x00 || opcode == 0xAF then 4
    else if opcode == 0x21 then 12
    else if opcode == 0xC3 then 16
    else 8
  }

  /** `fetch_imm8`: the byte at pc, then pc moves past it. */
  function FetchImm8<M>(bus: Bus<M>, s: Cpu<M>): (r: Result<(u8, Cpu<M>)>)
    ensures r.Ok? <==> bus.read(s.mem, s.regs.pc).Ok? && s.regs.pc < 0xFFFF
    ensures r.Ok? ==> Ok(r.value.0) == bus.read(s.mem, s.regs.pc)
    ensures r.Ok? ==> r.value.1 == Advanced(s, 1)
  {
    var byte :- bus.read(s.mem, s.regs.pc);
    var pc :- CheckedAdd(s.regs.pc, 1);
    Ok((byte, s.(regs := s.regs.(pc := pc))))
  }

  /** `fetch_imm16`: the word at pc, then pc moves past its two bytes. */
  function FetchImm16<M>(bus: Bus<M>, s: Cpu<M>): (r: Result<(u16, Cpu<M>)>)
    ensures r.Ok? <==> bus.readWide(s.mem, s.regs.pc).Ok? && s.regs.pc < 0xFFFE
    ensures r.Ok? ==> Ok(r.value.0) == bus.readWide(s.mem, s.regs.pc)
    ensures r.Ok? ==> r.value.1 == Advanced(s, 2)
  {
    var word :- bus.readWide(s.mem, s.regs.pc);
    var pc :- CheckedAdd(s.regs.pc, 2);
    Ok((word, s.(regs := s.regs.(pc := pc))))
  }

  /** `cycles_remaining += n` on a byte, which aborts on overflow. */
  function AddCycles<M>(s: Cpu<M>, n: CycleCount): (r: Result<Cpu<M>>)
    ensures s.cyclesRemaining == 0 ==> r == Ok(s.(cyclesRemaining := n))
    ensures r.Ok? <==> s.cyclesRemaining + n <= 0xFF
    ensures r.Ok? ==> r.value.(cyclesRemaining := s.cyclesRemaining) == s
  {
    if s.cyclesRemaining + n <= 0xFF then Ok(s.(cyclesRemaining := s.cyclesRemaining + n))
    else Err(ArithmeticOverflow)
  }

  /** `execute_instruction`, with pc already past the opcode byte. An
      opcode outside the seven is fatal and reports the current pc. No
      opcode touches SP, the flag byte or the cycle total, only 0x32 writes
      memory, and starting from zero remaining cycles the instruction books
      exactly its cost. */
  function Execute<M>(bus: Bus<M>, s: Cpu<M>, opcode: u8): (r: Result<Cpu<M>>)
    ensures !Implemented(opcode) ==> r == Err(UnimplementedOpcode(opcode, s.regs.pc))
    ensures r.Ok? ==> Implemented(opcode)
    ensures r.Ok? ==> r.value.regs.sp == s.regs.sp && r.value.regs.f == s.regs.f
    ensures r.Ok? ==> r.value.totalCycles == s.totalCycles
    ensures r.Ok? && opcode != 0x32 ==> r.value.mem == s.mem
    ensures r.Ok? && ShouldLoadNextInstr(s) ==> r.value.cyclesRemaining == Cost(opcode)
    ensures opcode == 0x32 && bus.write(s.mem, GetHL(s.regs), s.regs.a).Err? ==>
              r == Err(bus.write(s.mem, GetHL(s.regs), s.regs.a).fault)
  {
    if opcode == 0x00 then
      // NOP
      AddCycles(s, 4)
    else if opcode == 0x32 then
      // LD [HL-], A
      var addr := GetHL(s.regs);
      var mem :- bus.write(s.mem, addr, s.regs.a);
      var hl :- CheckedSub(addr, 1);
      AddCycles(s.(mem := mem, regs := SetHL(s.regs, hl)), 8)
    else if opcode == 0x06 then
      // LD B, d8
      var fetched :- FetchImm8(bus, s);
      var (d8, s1) := fetched;
      AddCycles(s1.(regs := s1.regs.(b := d8)), 8)
    else if opcode == 0x0E then
      // LD C, d8
      var fetched :- FetchImm8(bus, s);
      var (d8, s1) := fetched;
      AddCycles(s1.(regs := s1.regs.(c := d8)), 8)
    else if opcode == 0x21 then
      // LD HL, d16
      var fetched :- FetchImm16(bus, s);
      var (d16, s1) := fetched;
      Ok(s1.(regs := SetHL(s1.regs, d16), cyclesRemaining := 12))
    else if opcode == 0xAF then
      // XOR A: the flag byte is left as it was
      AddCycles(s.(regs := s.regs.(a := s.regs.a ^ s.regs.a)), 4)
    else if opcode == 0xC3 then
      // JP a16
      var fetched :- FetchImm16(bus, s);
      var (a16, s1) := fetched;
      Ok(s1.(regs := s1.regs.(pc := a16 as int), cyclesRemaining := 16))
    else
      Err(UnimplementedOpcode(opcode, s.regs.pc))
  }

  /* ---- The trace decoder's reads ---- */

  /** What the trace line of an opcode shows from memory. */
  datatype Operand = NoOperand | Byte(b: u8) | Word(w: u16)

  /** Opcodes whose trace line shows the byte after the opcode. */
  predicate TracesByte(opcode: u8) {
    opcode in {0x06, 0x0E, 0x18, 0x20, 0x28, 0x2E, 0x3E, 0xCB, 0xE0, 0xF0, 0xFE}
  }

  /** Opcodes whose trace line shows the word after the opcode. */
  predicate TracesWord(opcode: u8) {
    opcode in {0x11, 0x21, 0x31, 0xC3, 0xCD, 0xEA}
  }

  /** The memory reads of `decode_instruction`, made while pc still points
      at the opcode: the byte or word at `pc + 1`, where `pc + 1` aborts when
      pc is 0xFFFF. Only the reads matter to the machine; the text of the
      trace line is not modelled. */
  function TraceOperand<M>(bus: Bus<M>, s: Cpu<M>, opcode: u8): (r: Result<Operand>)
    ensures !TracesByte(opcode) && !TracesWord(opcode) ==> r == Ok(NoOperand)
    ensures (TracesByte(opcode) || TracesWord(opcode)) && s.regs.pc == 0xFFFF ==> r == Err(ArithmeticOverflow)
    ensures TracesByte(opcode) && s.regs.pc < 0xFFFF ==>
              r == (match bus.read(s.mem, s.regs.pc + 1) case Ok(b) => Ok(Byte(b)) case Err(e) => Err(e))
    ensures TracesWord(opcode) && s.regs.pc < 0xFFFF ==>
              r == (match bus.readWide(s.mem, s.regs.pc + 1) case Ok(w) => Ok(Word(w)) case Err(e) => Err(e))
  {
    if TracesByte(opcode) then
      var addr :- CheckedAdd(s.regs.pc, 1);
      var b :- bus.read(s.mem, addr);
      Ok(Byte(b))
    else if TracesWord(opcode) then
      var addr :- CheckedAdd(s.regs.pc, 1);
      var w :- bus.readWide(s.mem, addr);
      Ok(Word(w))
    else
      Ok(NoOperand)
  }

  /** For the implemented opcodes with an operand, the trace shows the very
      operand the instruction then fetches, and its read fails exactly when
      that fetch's read would: tracing adds no fault of its own to them. */
  lemma TraceShowsFetchedOperand<M>(bus: Bus<M>, s: Cpu<M>, opcode: u8)
    requires Implemented(opcode) && s.regs.pc < 0xFFFF
    ensures opcode == 0x06 || opcode == 0x0E ==>
              (TraceOperand(bus, s, opcode).Ok? <==> bus.read(s.mem, s.regs.pc + 1).Ok?) &&
              (TraceOperand(bus, s, opcode).Ok? ==>
                 TraceOperand(bus, s, opcode).value == Byte(bus.read(s.mem, Advanced(s, 1).regs.pc).value))
    ensures opcode == 0x21 || opcode == 0xC3 ==>
              (TraceOperand(bus, s, opcode).Ok? <==> bus.readWide(s.mem, s.regs.pc + 1).Ok?) &&
              (TraceOperand(bus, s, opcode).Ok? ==>
                 TraceOperand(bus, s, opcode).value == Word(bus.readWide(s.mem, Advanced(s, 1).regs.pc).value))
    ensures opcode !in {0x06, 0x0E, 0x21, 0xC3} ==> TraceOperand(bus, s, opcode) == Ok(NoOperand)
  {
  }

  /** `do_cycle`. With cycles remaining it only counts down; otherwise it
      fetches the opcode at pc, makes the trace decoder's reads, steps pc
      past the opcode, executes it, and adds the cycles the instruction
      booked to the total. */
  function DoCycle<M>(bus: Bus<M>, s: Cpu<M>): (r: Result<Cpu<M>>)
    ensures !ShouldLoadNextInstr(s) ==> r.Ok? && r.value.(cyclesRemaining := s.cyclesRemaining) == s
    ensures !ShouldLoadNextInstr(s) ==> r.value.cyclesRemaining == s.cyclesRemaining - 1
    ensures ShouldLoadNextInstr(s) && r.Ok? ==>
              !ShouldLoadNextInstr(r.value) && r.value.totalCycles == s.totalCycles + r.value.cyclesRemaining
    ensures ShouldLoadNextInstr(s) && r.Ok? ==> r.value.regs.sp == s.regs.sp
    ensures ShouldLoadNextInstr(s) && bus.read(s.mem, s.regs.pc).Err? ==> r == Err(bus.read(s.mem, s.regs.pc).fault)
    ensures ShouldLoadNextInstr(s) && bus.read(s.mem, s.regs.pc).Ok? && s.regs.pc == 0xFFFF ==> r == Err(ArithmeticOverflow)
  {
    if ShouldLoadNextInstr(s) then
      var op :- bus.read(s.mem, s.regs.pc);
      var operand :- TraceOperand(bus, s, op);
      var pc :- CheckedAdd(s.regs.pc, 1);
      var s1 :- Execute(bus, s.(regs := s.regs.(pc := pc)), op);
      Ok(s1.(totalCycles := s1.totalCycles + s1.cyclesRemaining))
    else
      Ok(s.(cyclesRemaining := s.cyclesRemaining - 1))
  }

  /** `n` consecutive calls of `DoCycle`, stopping at the first fault. */
  function Run<M>(bus: Bus<M>, s: Cpu<M>, n: nat): Result<Cpu<M>>
    decreases n
  {
    if n == 0 then Ok(s)
    else
      var s1 :- DoCycle(bus, s);
      Run(bus, s1, n - 1)
  }

  /* ---- One instruction at a time ---- */

  /** The state with `regs` and `mem` installed and `cost` cycles booked and
      counted. */
  function Booked<M>(s: Cpu<M>, regs: Registers, mem: M, cost: CycleCount): Cpu<M> {
    Cpu(regs, mem, s.totalCycles + cost, cost)
  }

  /** The state with pc moved `n` bytes on. */
  function Advanced<M>(s: Cpu<M>, n: nat): Cpu<M>
    requires s.regs.pc + n <= 0xFFFF
  {
    s.(regs := s.regs.(pc := s.regs.pc + n))
  }

  /** A fetching cycle makes the trace decoder's reads, then executes the
      opcode at pc with pc already past it. */
  lemma DoCycleExecutes<M>(bus: Bus<M>, s: Cpu<M>, op: u8)
    requires ShouldLoadNextInstr(s) && bus.read(s.mem, s.regs.pc) == Ok(op) && s.regs.pc < 0xFFFF
    ensures DoCycle(bus, s) ==
              (match TraceOperand(bus, s, op)
               case Err(e) => Err(e)
               case Ok(_) =>
                 match Execute(bus, Advanced(s, 1), op)
                 case Ok(s1) => Ok(s1.(totalCycles := s1.totalCycles + s1.cyclesRemaining))
                 case Err(e) => Err(e))
  {
    assert CheckedAdd(s.regs.pc, 1) == Ok(s.regs.pc + 1);
  }

  /** NOP: pc moves past the opcode, 4 cycles are booked, nothing else
      changes. */
  lemma StepNop<M>(bus: Bus<M>, s: Cpu<M>)
    requires ShouldLoadNextInstr(s) && bus.read(s.mem, s.regs.pc) == Ok(0x00) && s.regs.pc < 0xFFFF
    ensures DoCycle(bus, s) == Ok(Booked(s, s.regs.(pc := s.regs.pc + 1), s.mem, 4))
  {
    DoCycleExecutes(bus, s, 0x00);
  }

  /** LD B, d8: B takes the byte after the opcode, pc moves two on. */
  lemma StepLoadB<M>(bus: Bus<M>, s: Cpu<M>, d8: u8)
    requires ShouldLoadNextInstr(s) && bus.read(s.mem, s.regs.pc) == Ok(0x06) && s.regs.pc < 0xFFFE
    requires bus.read(s.mem, (s.regs.pc + 1)) == Ok(d8)
    ensures DoCycle(bus, s) == Ok(Booked(s, s.regs.(pc := s.regs.pc + 2, b := d8), s.mem, 8))
  {
    DoCycleExecutes(bus, s, 0x06);
    FetchAfterOpcode(bus, s);
  }

  /** LD C, d8: C takes the byte after the opcode, pc moves two on. */
  lemma StepLoadC<M>(bus: Bus<M>, s: Cpu<M>, d8: u8)
    requires ShouldLoadNextInstr(s) && bus.read(s.mem, s.regs.pc) == Ok(0x0E) && s.regs.pc < 0xFFFE
    requires bus.read(s.mem, (s.regs.pc + 1)) == Ok(d8)
    ensures DoCycle(bus, s) == Ok(Booked(s, s.regs.(pc := s.regs.pc + 2, c := d8), s.mem, 8))
  {
    DoCycleExecutes(bus, s, 0x0E);
    FetchAfterOpcode(bus, s);
  }

  /** Reading the immediate byte after the opcode leaves pc two bytes on. */
  lemma FetchAfterOpcode<M>(bus: Bus<M>, s: Cpu<M>)
    requires s.regs.pc < 0xFFFE && bus.read(s.mem, (s.regs.pc + 1)).Ok?
    ensures FetchImm8(bus, Advanced(s, 1)) == Ok((bus.read(s.mem, (s.regs.pc + 1)).value, Advanced(s, 2)))
  {
  }

  /** Reading the immediate word after the opcode leaves pc three bytes on. */
  lemma FetchWideAfterOpcode<M>(bus: Bus<M>, s: Cpu<M>)
    requires s.regs.pc < 0xFFFD && bus.readWide(s.mem, (s.regs.pc + 1)).Ok?
    ensures FetchImm16(bus, Advanced(s, 1)) == Ok((bus.readWide(s.mem, (s.regs.pc + 1)).value, Advanced(s, 3)))
  {
  }

  /** LD HL, d16: HL takes the word after the opcode, pc moves three on,
      and 12 cycles are booked. */
  lemma StepLoadHL<M>(bus: Bus<M>, s: Cpu<M>, d16: u16)
    requires ShouldLoadNextInstr(s) && bus.read(s.mem, s.regs.pc) == Ok(0x21) && s.regs.pc < 0xFFFD
    requires bus.readWide(s.mem, (s.regs.pc + 1)) == Ok(d16)
    ensures DoCycle(bus, s) == Ok(Booked(s, SetHL(s.regs.(pc := s.regs.pc + 3), d16), s.mem, 12))
    ensures GetHL(DoCycle(bus, s).value.regs) == d16
  {
    DoCycleExecutes(bus, s, 0x21);
    FetchWideAfterOpcode(bus, s);
  }

  /** JP a16: pc takes the word after the opcode; 16 cycles are booked. */
  lemma StepJump<M>(bus: Bus<M>, s: Cpu<M>, a16: u16)
    requires ShouldLoadNextInstr(s) && bus.read(s.mem, s.regs.pc) == Ok(0xC3) && s.regs.pc < 0xFFFD
    requires bus.readWide(s.mem, (s.regs.pc + 1)) == Ok(a16)
    ensures DoCycle(bus, s) == Ok(Booked(s, s.regs.(pc := a16 as int), s.mem, 16))
  {
    DoCycleExecutes(bus, s, 0xC3);
    FetchWideAfterOpcode(bus, s);
  }

  /** XOR A: A becomes 0 while the flag byte keeps its old value (the zero
      flag is not raised). */
  lemma StepXorA<M>(bus: Bus<M>, s: Cpu<M>)
    requires ShouldLoadNextInstr(s) && bus.read(s.mem, s.regs.pc) == Ok(0xAF) && s.regs.pc < 0xFFFF
    ensures DoCycle(bus, s) == Ok(Booked(s, s.regs.(pc := s.regs.pc + 1, a := 0), s.mem, 4))
  {
    DoCycleExecutes(bus, s, 0xAF);
  }

  /** LD [HL-], A: A is written at HL, then HL steps down by one. With HL
      already 0 the decrement underflows and the step is fatal, after the
      write. */
  lemma StepStoreDecrement<M>(bus: Bus<M>, s: Cpu<M>, mem: M)
    requires ShouldLoadNextInstr(s) && bus.read(s.mem, s.regs.pc) == Ok(0x32) && s.regs.pc < 0xFFFF
    requires bus.write(s.mem, GetHL(s.regs), s.regs.a) == Ok(mem)
    ensures GetHL(s.regs) != 0 ==>
              DoCycle(bus, s) == Ok(Booked(s, SetHL(s.regs.(pc := s.regs.pc + 1), GetHL(s.regs) - 1), mem, 8))
    ensures GetHL(s.regs) == 0 ==> DoCycle(bus, s) == Err(ArithmeticOverflow)
  {
    DoCycleExecutes(bus, s, 0x32);
    var s0 := Advanced(s, 1);
    assert GetHL(s0.regs) == GetHL(s.regs);
    assert s0.regs.a == s.regs.a;
  }

  /** Any other opcode is fatal, reported with pc already past it, unless
      the trace decoder's read of the operand after it fails first; that
      fault is then the one reported. */
  lemma StepUnimplemented<M>(bus: Bus<M>, s: Cpu<M>, op: u8)
    requires ShouldLoadNextInstr(s) && bus.read(s.mem, s.regs.pc) == Ok(op) && s.regs.pc < 0xFFFF
    requires !Implemented(op)
    ensures TraceOperand(bus, s, op).Ok? ==> DoCycle(bus, s) == Err(UnimplementedOpcode(op, s.regs.pc + 1))
    ensures TraceOperand(bus, s, op).Err? ==> DoCycle(bus, s) == Err(TraceOperand(bus, s, op).fault)
    ensures !TracesByte(op) && !TracesWord(op) ==> DoCycle(bus, s) == Err(UnimplementedOpcode(op, s.regs.pc + 1))
  {
    DoCycleExecutes(bus, s, op);
  }

  /* ---- Timing ---- */

  /** A call fetches and books a new instruction exactly when the CPU is
      ready; otherwise it changes nothing but the countdown. */
  lemma FetchesExactlyWhenIdle<M>(bus: Bus<M>, s: Cpu<M>)
    ensures ShouldLoadNextInstr(s) <==>
              (DoCycle(bus, s).Ok? ==> DoCycle(bus, s).value.totalCycles > s.totalCycles)
    ensures !ShouldLoadNextInstr(s) ==> DoCycle(bus, s).Ok? && DoCycle(bus, s).value.totalCycles == s.totalCycles
  {
  }

  /** With `k` cycles remaining, each of the next `k` calls only counts
      down by one: after `n <= k` of them `k - n` remain and nothing else
      has changed. */
  lemma {:induction false} CountDown<M>(bus: Bus<M>, s: Cpu<M>, n: nat)
    requires n <= s.cyclesRemaining
    ensures Run(bus, s, n).Ok?
    ensures Run(bus, s, n).value.(cyclesRemaining := s.cyclesRemaining) == s
    ensures Run(bus, s, n).value.cyclesRemaining == s.cyclesRemaining - n
    decreases n
  {
    if n != 0 {
      var s1 := s.(cyclesRemaining := s.cyclesRemaining - 1);
      assert DoCycle(bus, s) == Ok(s1);
      CountDown(bus, s1, n - 1);
    }
  }

  /** Running `m` then `n` cycles is running `m + n` cycles. */
  lemma {:induction false} RunAppend<M>(bus: Bus<M>, s: Cpu<M>, m: nat, n: nat)
    ensures Run(bus, s, m + n) ==
              (match Run(bus, s, m) case Ok(s1) => Run(bus, s1, n) case Err(e) => Err(e))
    decreases m
  {
    if m != 0 {
      match DoCycle(bus, s)
      case Ok(s1) =>
        RunAppend(bus, s1, m - 1, n);
      case Err(_) =>
    }
  }

  /** An instruction of cost N occupies N + 1 calls of `DoCycle`: the call
      that fetches it, then N calls that only count down, and only then is
      the CPU ready for the next fetch, with the state the instruction left. */
  lemma InstructionOccupiesCostPlusOne<M>(bus: Bus<M>, s: Cpu<M>, s1: Cpu<M>)
    requires ShouldLoadNextInstr(s) && DoCycle(bus, s) == Ok(s1)
    ensures s1.cyclesRemaining > 0
    ensures Run(bus, s, 1 + s1.cyclesRemaining) == Ok(s1.(cyclesRemaining := 0))
    ensures forall j :: 1 <= j <= s1.cyclesRemaining ==>
              Run(bus, s, j).Ok? && !ShouldLoadNextInstr(Run(bus, s, j).value)
  {
    var k := s1.cyclesRemaining;
    assert Run(bus, s, 1) == Ok(s1) by {
      assert Run(bus, s1, 0) == Ok(s1);
    }
    CountDown(bus, s1, k);
    RunAppend(bus, s, 1, k);
    assert Run(bus, s1, k).value == s1.(cyclesRemaining := 0);
    forall j | 1 <= j <= k
      ensures Run(bus, s, j).Ok? && !ShouldLoadNextInstr(Run(bus, s, j).value)
    {
      RunAppend(bus, s, 1, j - 1);
      CountDown(bus, s1, j - 1);
    }
  }

  /* ---- The CPU on the address router ---- */

  /** The bus whose byte read is the router's; the wide read and the write
      are supplied from outside. */
  function RouterBus(readWide: (Mmu.Mmu, Pc) -> Result<u16>,
                     write: (Mmu.Mmu, u16, u8) -> Result<Mmu.Mmu>): (bus: Bus<Mmu.Mmu>)
    ensures forall m, addr: Pc :: bus.read(m, addr) == Mmu.Read(m, addr as u16)
  {
    Bus((m: Mmu.Mmu, addr: Pc) => Mmu.Read(m, addr as u16), readWide, write)
  }

  /** A freshly built CPU over an image whose first byte is 0x00 executes a
      NOP: pc becomes 1 and 4 cycles are booked and counted. */
  lemma FirstCycleOnNopImage(data: seq<u8>, readWide: (Mmu.Mmu, Pc) -> Result<u16>,
                             write: (Mmu.Mmu, u16, u8) -> Result<Mmu.Mmu>)
    requires Mmu.New(data).Ok? && data[0] == 0x00
    ensures data[Cartridge.ROM_SIZE_IDX] < 32 ==>
              Cartridge.NewAsWritten(data) == Ok(Mmu.New(data).value.cartridge)
    ensures var s := New(Mmu.New(data).value);
            var r := DoCycle(RouterBus(readWide, write), s);
            r.Ok? && r.value.regs.pc == 1 && r.value.cyclesRemaining == 4 && r.value.totalCycles == 4
  {
    var s := New(Mmu.New(data).value);
    StepNop(RouterBus(readWide, write), s);
  }
}

=== FILE: joypad.dfy ===
/** The joypad register P1. Bit 5 low selects the button keys, bit 4 low the
    direction keys; bits 0..3 are the key lines, low meaning pressed. Writes
    from the program keep only bits 3..7. Each key line that a selected
    group owns is pulled low on every cycle, whether or not the key is
    pressed. */
module Joypad {
  import opened Types

  datatype Key = Down | Up | Left | Right | Start | Select | B | A

  datatype Joypad = Joypad(p1: u8)

  function New(): (j: Joypad)
    ensures Read(j) == 0
  {
    Joypad(0)
  }

  /** The program's read shows the whole register: both select bits and
      the four key lines. */
  function Read(j: Joypad): (v: u8)
    ensures Joypad(v) == j
    ensures IsSelectedButtonKeys(j) <==> v & 0x20 == 0
    ensures IsSelectedDirectionKeys(j) <==> v & 0x10 == 0
  {
    j.p1
  }

  /** The program's write: bits 0..2 are cleared, bits 3..7 are stored. */
  function Write(j: Joypad, v: u8): (j': Joypad)
    ensures Read(j') & 0x07 == 0
    ensures Read(j') & 0xF8 == v & 0xF8
  {
    Joypad(v & 0xF8)
  }

  /** Writing then reading gives the written byte with its three low bits
      cleared, and writing is idempotent. */
  lemma WriteThenRead(j: Joypad, v: u8)
    ensures Read(Write(j, v)) == v & 0xF8
    ensures Write(j, Read(Write(j, v))) == Write(j, v)
  {
  }

  /** The key line a key drives: each line is shared by one button and one
      direction. */
  function KeyMask(k: Key): u8 {
    match k
    case Down | Start => 0x08
    case Up | Select => 0x04
    case Left | B => 0x02
    case Right | A => 0x01
  }

  predicate IsSelectedButtonKeys(j: Joypad) {
    j.p1 & 0x20 == 0
  }

  predicate IsSelectedDirectionKeys(j: Joypad) {
    j.p1 & 0x10 == 0
  }

  /** `set_key`: clears the key's line. `pressed` is not consulted. */
  function SetKey(j: Joypad, k: Key, pressed: bool): (j': Joypad)
    ensures j'.p1 & KeyMask(k) == 0
    ensures j'.p1 | KeyMask(k) == j.p1 | KeyMask(k)
  {
    Joypad(j.p1 & !KeyMask(k))
  }

  /** The key's line is the only bit `set_key` changes, and pressing and
      releasing have the same effect. */
  lemma SetKeyIgnoresPressed(j: Joypad, k: Key)
    ensures SetKey(j, k, true) == SetKey(j, k, false)
    ensures SetKey(j, k, true).p1 & 0xF0 == j.p1 & 0xF0
  {
  }

  /** The button group is selected exactly when the program last wrote a
      byte with bit 5 clear; pulling key lines low never changes that. */
  lemma ButtonSelectionFollowsWrite(j: Joypad, v: u8, k: Key, pressed: bool)
    ensures IsSelectedButtonKeys(Write(j, v)) <==> v & 0x20 == 0
    ensures IsSelectedButtonKeys(SetKey(j, k, pressed)) == IsSelectedButtonKeys(j)
  {
  }

  /** The direction group is selected exactly when the program last wrote a
      byte with bit 4 clear; pulling key lines low never changes that. */
  lemma DirectionSelectionFollowsWrite(j: Joypad, v: u8, k: Key, pressed: bool)
    ensures IsSelectedDirectionKeys(Write(j, v)) <==> v & 0x10 == 0
    ensures IsSelectedDirectionKeys(SetKey(j, k, pressed)) == IsSelectedDirectionKeys(j)
  {
  }

  /** `do_cycle`: the button lines when the buttons are selected, then the
      direction lines when the directions are selected. `input` stands for
      the window's key state; it is passed along and never changes the
      outcome. */
  function DoCycle(j: Joypad, input: Key -> bool): (j': Joypad)
    ensures (IsSelectedButtonKeys(j) || IsSelectedDirectionKeys(j)) ==> j'.p1 == j.p1 & 0xF0
    ensures !IsSelectedButtonKeys(j) && !IsSelectedDirectionKeys(j) ==> j' == j
    ensures j'.p1 & 0xF0 == j.p1 & 0xF0
  {
    var j1 :=
      if IsSelectedButtonKeys(j) then
        SetKey(SetKey(SetKey(SetKey(j, A, input(A)), B, input(B)), Select, input(Select)), Start, input(Start))
      else j;
    if IsSelectedDirectionKeys(j1) then
      SetKey(SetKey(SetKey(SetKey(j1, Down, input(Down)), Up, input(Up)), Left, input(Left)), Right, input(Right))
    else j1
  }

  /** A second cycle changes nothing, and the key state never matters. */
  lemma DoCycleIdempotent(j: Joypad, input: Key -> bool, other: Key -> bool)
    ensures DoCycle(DoCycle(j, input), other) == DoCycle(j, input)
    ensures DoCycle(j, input) == DoCycle(j, other)
  {
  }
}

=== FILE: mbc.dfy ===
/** The cartridge's bank controller: the four-operation interface the router
    sees (read and write ROM, read and write RAM), the header-title routine
    every controller shares, and the load-time choice of controller from
    the cartridge-type byte. Only the no-banking controller (MBC0) exists. */
module Mbc {
  import opened Types
  import Cartridge

  const TITLE_START: u16 := 0x134
  const CGB_FLAG: u16 := 0x143
  const CARTRIDGE_TYPE_IDX: int := 0x147

  /** The known controller kinds, as a tagged variant. */
  datatype Mbc = Mbc0(rom: seq<u8>)

  /* ---- MBC0: the whole image is flat ROM ---- */

  /** `rom.get(addr)`: the byte at `addr`, or a fault past the end. */
  function ReadRom(m: Mbc, addr: u16): (r: Result<u8>)
    ensures r.Ok? <==> (addr as int) < |m.rom|
    ensures r.Ok? ==> r.value == m.rom[addr as int]
    ensures r.Err? ==> r.fault == OutOfBounds(addr as int)
  {
    if (addr as int) < |m.rom| then Ok(m.rom[addr as int]) else Err(OutOfBounds(addr as int))
  }

  /** MBC0 has no RAM; every read gives the fixed value 0. */
  function ReadRam(m: Mbc, addr: u16): (r: u8)
    ensures r == 0
  {
    0
  }

  /** Writes to ROM are ignored: every later ROM and RAM read returns what
      it returned before. */
  function WriteRom(m: Mbc, addr: u16, val: u8): (m': Mbc)
    ensures forall a: u16 :: ReadRom(m', a) == ReadRom(m, a)
    ensures forall a: u16 :: ReadRam(m', a) == ReadRam(m, a)
  {
    m
  }

  /** Writes to RAM are ignored: every later ROM and RAM read returns what
      it returned before. */
  function WriteRam(m: Mbc, addr: u16, val: u8): (m': Mbc)
    ensures forall a: u16 :: ReadRom(m', a) == ReadRom(m, a)
    ensures forall a: u16 :: ReadRam(m', a) == ReadRam(m, a)
  {
    m
  }

  /** One write through the controller interface. */
  datatype Write = RomWrite(addr: u16, val: u8) | RamWrite(addr: u16, val: u8)

  function Apply(m: Mbc, w: Write): Mbc {
    match w
    case RomWrite(addr, val) => WriteRom(m, addr, val)
    case RamWrite(addr, val) => WriteRam(m, addr, val)
  }

  function ApplyAll(m: Mbc, ws: seq<Write>): Mbc
    decreases |ws|
  {
    if |ws| == 0 then m else ApplyAll(Apply(m, ws[0]), ws[1..])
  }

  /** Every RAM read is 0, and no sequence of writes changes what a later
      ROM or RAM read returns. */
  lemma {:induction false} WritesAreInvisible(m: Mbc, ws: seq<Write>, addr: u16)
    ensures ApplyAll(m, ws) == m
    ensures ReadRom(ApplyAll(m, ws), addr) == ReadRom(m, addr)
    ensures ReadRam(ApplyAll(m, ws), addr) == 0
    decreases |ws|
  {
    if |ws| > 0 {
      WritesAreInvisible(Apply(m, ws[0]), ws[1..], addr);
    }
  }

  /* ---- The title, as every controller reports it ---- */

  /** The title length bound: 11 for a colour-flagged header (0x80 or 0xC0
      at 0x143), else 16. */
  function TitleBound(cgbFlag: u8): nat {
    if cgbFlag == 0x80 || cgbFlag == 0xC0 then 11 else 16
  }

  /** The `k`-th byte of the header's title window. */
  function TitleByte(rom: seq<u8>, k: nat): u8
    requires TITLE_START as int + k < |rom|
  {
    rom[TITLE_START as int + k]
  }

  /** `title` is the header title of `rom`: the bytes from 0x134 up to the
      first zero byte, at most `TitleBound` of them. */
  predicate IsRomName(rom: seq<u8>, title: string)
    requires |rom| > CGB_FLAG as int
  {
    var bound := TitleBound(rom[CGB_FLAG]);
    && |title| <= bound
    && (forall k :: 0 <= k < |title| ==> TitleByte(rom, k) != 0 && title[k] == TitleByte(rom, k) as char)
    && (|title| < bound ==> TitleByte(rom, |title|) == 0)
  }

  /** Every byte a title copies is non-zero. */
  lemma TitleByteNonZero(rom: seq<u8>, t: string, k: int)
    requires |rom| > CGB_FLAG as int
    requires IsRomName(rom, t) && 0 <= k < |t|
    ensures TitleByte(rom, k) != 0
  {
  }

  /** At most one string is the title of an image. */
  lemma RomNameUnique(rom: seq<u8>, t1: string, t2: string)
    requires |rom| > CGB_FLAG as int
    requires IsRomName(rom, t1) && IsRomName(rom, t2)
    ensures t1 == t2
  {
    var k := if |t1| < |t2| then |t1| else |t2|;
    if |t1| != |t2| {
      if |t1| < |t2| {
        TitleByteNonZero(rom, t2, k);
      } else {
        TitleByteNonZero(rom, t1, k);
      }
      assert false;
    }
    assert forall k :: 0 <= k < |t1| ==> t1[k] == t2[k];
  }

  /** The address of the `i`-th title byte, computed on 16 bits, is
      0x134 + i: the window never wraps. */
  lemma TitleAddress(i: int)
    requires 0 <= i < 16
    ensures (TITLE_START + i as u16) as int == 0x134 + i
  {
  }

  /** `rom_name`: read the flag byte, then copy header bytes until a zero
      byte or the bound. Every read goes through `ReadRom`; only the flag
      read can fail, on an image of at most 0x143 bytes. */
  method RomName(m: Mbc) returns (r: Result<string>)
    ensures r.Ok? <==> |m.rom| > CGB_FLAG as int
    ensures r.Ok? ==> IsRomName(m.rom, r.value)
    ensures r.Ok? ==> forall k :: 0 <= k < |r.value| ==> r.value[k] != 0 as char
  {
    var flag := ReadRom(m, CGB_FLAG);
    if flag.Err? {
      return Err(flag.fault);
    }
    var size := TitleBound(flag.value);
    var title := "";
    var i := 0;
    while i < size
      invariant 0 <= i <= size
      invariant |title| == i
      invariant forall k :: 0 <= k < i ==> TitleByte(m.rom, k) != 0 && title[k] == TitleByte(m.rom, k) as char
    {
      TitleAddress(i);
      match ReadRom(m, TITLE_START + i as u16)
      case Err(_) =>
        assert false;
      case Ok(c) =>
        assert c == TitleByte(m.rom, i);
        if c == 0 {
          break;
        }
        title := title + [c as char];
        i := i + 1;
    }
    return Ok(title);
  }

  /* ---- Choosing the controller at load time ---- */

  /** The image is kept unchanged in an MBC0 when the cartridge-type byte is
      0x00; any other type is fatal. A short image (under 0x150 bytes) is
      only warned about, but the type byte itself must exist. */
  function LoadCartridge(data: seq<u8>): (r: Result<Mbc>)
    ensures r.Ok? <==> |data| > CARTRIDGE_TYPE_IDX && data[CARTRIDGE_TYPE_IDX] == 0x00
    ensures r.Ok? ==> r.value == Mbc0(data)
    ensures |data| > CARTRIDGE_TYPE_IDX && data[CARTRIDGE_TYPE_IDX] != 0x00 ==>
              r == Err(UnsupportedCartridgeType(data[CARTRIDGE_TYPE_IDX]))
  {
    if |data| <= CARTRIDGE_TYPE_IDX then Err(OutOfBounds(CARTRIDGE_TYPE_IDX))
    else if data[CARTRIDGE_TYPE_IDX] == 0x00 then Ok(Mbc0(data))
    else Err(UnsupportedCartridgeType(data[CARTRIDGE_TYPE_IDX]))
  }

  /** The controller the loader picks reads the image exactly as the
      router's cartridge does, faults included. */
  lemma LoadedControllerReadsImage(data: seq<u8>, addr: u16)
    requires LoadCartridge(data).Ok? && Cartridge.New(data).Ok?
    ensures ReadRom(LoadCartridge(data).value, addr) == Cartridge.Read(Cartridge.New(data).value, addr)
  {
  }
}

=== FILE: mmu.dfy ===
/** The address router: the CPU's view of the 16-bit address space. Only
    the fixed ROM bank is wired to the cartridge; the switchable bank window
    is fatal and every other region reads as 0. */
module Mmu {
  import opened Types
  import Cartridge

  datatype Mmu = Mmu(cartridge: Cartridge.Cartridge)

  /** The router is built around the cartridge the loader returns. It uses
      the corrected loader: it agrees with the loader as written except on
      an otherwise valid header whose ROM-size byte is 32 or more, which the
      as-written size diagnostic aborts on. */
  function New(data: seq<u8>): (r: Result<Mmu>)
    ensures r.Ok? <==> Cartridge.New(data).Ok?
    ensures r.Ok? ==> r.value.cartridge.romData == data
    ensures r.Err? ==> r.fault == Cartridge.New(data).fault
    ensures r.Err? ==> Cartridge.NewAsWritten(data) == Err(r.fault)
    ensures r.Ok? && data[Cartridge.ROM_SIZE_IDX] < 32 ==> Cartridge.NewAsWritten(data) == Ok(r.value.cartridge)
    ensures r.Ok? && data[Cartridge.ROM_SIZE_IDX] >= 32 ==> Cartridge.NewAsWritten(data).Err?
  {
    var c :- Cartridge.New(data);
    Ok(Mmu(c))
  }

  /** The read dispatch, one branch per region in address order. The first
      region ends at 0x3FFF and the banked window is written as starting at
      0x3FFF too; the earlier branch wins, so 0x3FFF is a cartridge read.
      Reading never changes the router. */
  function Read(m: Mmu, addr: u16): (r: Result<u8>)
    ensures addr <= 0x3FFF ==> r == Cartridge.Read(m.cartridge, addr)
    ensures 0x4000 <= addr <= 0x7FFF ==> r == Err(BankingUnsupported(addr))
    ensures 0x8000 <= addr ==> r == Ok(0)
  {
    if addr <= 0x3FFF then Cartridge.Read(m.cartridge, addr)
    else if addr <= 0x7FFF then Err(BankingUnsupported(addr))
    else if addr <= 0x9FFF then Ok(0)   // video RAM
    else if addr <= 0xBFFF then Ok(0)   // external RAM
    else if addr <= 0xCFFF then Ok(0)   // work RAM bank 0
    else if addr <= 0xDFFF then Ok(0)   // work RAM bank 1
    else if addr <= 0xFDFF then Ok(0)   // echo of work RAM
    else if addr <= 0xFE9F then Ok(0)   // sprite attribute table
    else if addr <= 0xFEFF then Ok(0)   // not usable
    else if addr <= 0xFF7F then Ok(0)   // I/O ports
    else if addr <= 0xFFFE then Ok(0)   // high RAM
    else if addr == 0xFFFF then Ok(0)   // interrupt enable register
    else assert false; Err(OutOfBounds(addr as int))
  }

  /** A read fails exactly in the banked window or past the end of the image
      in the fixed bank: the trailing out-of-range branch is never taken. */
  lemma ReadFailsOnlyThere(m: Mmu, addr: u16)
    ensures Read(m, addr).Err? <==>
              (0x4000 <= addr <= 0x7FFF) || (addr <= 0x3FFF && addr as int >= |m.cartridge.romData|)
    ensures Read(m, addr).Err? ==>
              Read(m, addr).fault == BankingUnsupported(addr) || Read(m, addr).fault == OutOfBounds(addr as int)
  {
  }

  /** Through the router, the fixed bank shows the image byte for byte. */
  lemma ReadShowsImage(data: seq<u8>, addr: u16)
    requires New(data).Ok?
    requires addr <= 0x3FFF && (addr as int) < |data|
    ensures Read(New(data).value, addr) == Ok(data[addr as int])
  {
  }
}

=== FILE: palette.dfy ===
/** A palette register decoded into the four shades it assigns to colour
    numbers 0..3: colour `i` takes the two bits at positions `2i` and
    `2i + 1`. The display's ARGB values are not part of this model; a shade
    is one of four abstract values. */
module Palette {
  import opened Types

  datatype Shade = White | LightGray | DarkGray | Black

  type Colors = s: seq<Shade> | |s| == 4 witness [White, White, White, White]

  datatype Palette = Palette(register: u8, colors: Colors)

  /** The two-bit code of a shade. */
  function ShadeCode(s: Shade): u8 {
    match s
    case White => 0
    case LightGray => 1
    case DarkGray => 2
    case Black => 3
  }

  /** `to_grayshade`: codes 0..3 name the shades from lightest to darkest;
      any larger value is fatal. */
  function ToGrayshade(color: u8): (r: Result<Shade>)
    ensures r.Ok? <==> color <= 3
    ensures r.Err? ==> r.fault == InvalidColor(color)
    ensures r.Ok? ==> ShadeCode(r.value) == color
  {
    if color == 0 then Ok(White)
    else if color == 1 then Ok(LightGray)
    else if color == 2 then Ok(DarkGray)
    else if color == 3 then Ok(Black)
    else Err(InvalidColor(color))
  }

  /** `Palette::new`: keeps the register and decodes its four fields. The
      top field is taken as `r >> 6` without a mask, which is already at
      most 3, so decoding never fails. */
  function New(r: u8): (p: Palette)
    ensures p.register == r
    ensures ShadeCode(p.colors[0]) == r & 0x03
    ensures ShadeCode(p.colors[1]) == (r >> 2) & 0x03
    ensures ShadeCode(p.colors[2]) == (r >> 4) & 0x03
    ensures ShadeCode(p.colors[3]) == (r >> 6) & 0x03
  {
    var color0 := r & 0x03;
    var color1 := (r >> 2) & 0x03;
    var color2 := (r >> 4) & 0x03;
    var color3 := r >> 6;
    Palette(r, [ToGrayshade(color0).value, ToGrayshade(color1).value,
                ToGrayshade(color2).value, ToGrayshade(color3).value])
  }

  /** The register byte that assigns the four given shades. */
  function Encode(cs: Colors): u8 {
    ShadeCode(cs[0]) | (ShadeCode(cs[1]) << 2) | (ShadeCode(cs[2]) << 4) | (ShadeCode(cs[3]) << 6)
  }

  /** Decoding loses nothing: re-encoding the decoded shades gives back the
      register. */
  lemma DecodeEncode(r: u8)
    ensures Encode(New(r).colors) == r
  {
    var cs := New(r).colors;
    assert ShadeCode(cs[0]) == r & 0x03 && ShadeCode(cs[1]) == (r >> 2) & 0x03;
    assert ShadeCode(cs[2]) == (r >> 4) & 0x03 && ShadeCode(cs[3]) == (r >> 6) & 0x03;
  }

  /** Every assignment of four shades is some register's decoding: decoding
      an encoding gives back the shades. With `DecodeEncode`, two registers
      decode alike exactly when they are equal. */
  lemma EncodeDecode(cs: Colors)
    ensures New(Encode(cs)).colors == cs
  {
    var q := New(Encode(cs));
    forall i | 0 <= i < 4
      ensures q.colors[i] == cs[i]
    {
      assert ShadeCode(q.colors[i]) == ShadeCode(cs[i]);
    }
  }

  /** `to_argb`: the shade of colour number `color`; indexing the four-entry
      table with a colour of 4 or more is fatal. */
  function ToArgb(p: Palette, color: u8): (r: Result<Shade>)
    ensures r.Ok? <==> color < 4
    ensures r.Ok? ==> r.value == p.colors[color as int]
    ensures r.Err? ==> r.fault == OutOfBounds(color as int)
  {
    if color < 4 then Ok(p.colors[color as int]) else Err(OutOfBounds(color as int))
  }

  /** The power-on background palette 0xFC: colour 0 white, the rest black. */
  lemma BackgroundPaletteAtPowerOn()
    ensures New(0xFC).colors == [White, Black, Black, Black]
  {
    var cs := New(0xFC).colors;
    assert ShadeCode(cs[0]) == 0 && ShadeCode(cs[1]) == 3;
    assert ShadeCode(cs[2]) == 3 && ShadeCode(cs[3]) == 3;
  }
}

=== FILE: ppu.dfy ===
/** The pixel-processing unit as far as it exists: eleven memory-mapped
    registers and the 8 KiB video RAM, whose visibility is gated by the mode
    field (the low two bits) of the status register. Mode transitions and
    rendering do not exist. */
module Ppu {
  import opened Types

  const VRAM_SIZE: nat := 0x2000

  const LCDC: u16 := 0xFF40
  const STAT: u16 := 0xFF41
  const SCY: u16 := 0xFF42
  const SCX: u16 := 0xFF43
  const LY: u16 := 0xFF44
  const LYC: u16 := 0xFF45
  const BGP: u16 := 0xFF47
  const OBP0: u16 := 0xFF48
  const OBP1: u16 := 0xFF49
  const WY: u16 := 0xFF4A
  const WX: u16 := 0xFF4B

  type Vram = s: seq<u8> | |s| == VRAM_SIZE witness seq(0x2000, _ => 0)

  /** The four values of the status register's mode field. */
  datatype Mode = HBlank | VBlank | Searching | Transfer

  datatype Ppu = Ppu(
    lcdc: u8, stat: u8, scy: u8, scx: u8, ly: u8, lyc: u8,
    bgp: u8, obp0: u8, obp1: u8, wy: u8, wx: u8,
    vram: Vram)

  /** Power-on values: LCD on with background (0x91), mode field H-Blank,
      background palette 0xFC, both object palettes 0xFF, video RAM zero. */
  function New(): (p: Ppu)
    ensures p.lcdc == 0x91 && p.bgp == 0xFC && p.obp0 == 0xFF && p.obp1 == 0xFF
    ensures p.stat == 0 && p.scy == 0 && p.scx == 0 && p.ly == 0 && p.lyc == 0 && p.wy == 0 && p.wx == 0
    ensures LcdMode(p) == HBlank && IsVramAccessible(p)
    ensures forall i :: 0 <= i < VRAM_SIZE ==> p.vram[i] == 0
  {
    Ppu(0x91, 0x00, 0x00, 0x00, 0x00, 0x00, 0xFC, 0xFF, 0xFF, 0x00, 0x00, seq(0x2000, _ => 0))
  }

  /** The numeric value of a mode in the status register. */
  function ModeCode(m: Mode): u8 {
    match m
    case HBlank => 0
    case VBlank => 1
    case Searching => 2
    case Transfer => 3
  }

  /** `lcd_mode`: the mode field of the status register. The fallback for a
      field above 3 cannot be reached, so the function is total. */
  function LcdMode(p: Ppu): (m: Mode)
    ensures ModeCode(m) == p.stat & 3
  {
    var field := p.stat & 0x03;
    if field == 0 then HBlank
    else if field == 1 then VBlank
    else if field == 2 then Searching
    else if field == 3 then Transfer
    else assert false; HBlank
  }

  /** The mode is read from the two low bits only and is the only value whose
      code is those bits. */
  lemma LcdModeOnlyLowBits(p: Ppu, q: Ppu, m: Mode)
    ensures p.stat & 3 == q.stat & 3 ==> LcdMode(p) == LcdMode(q)
    ensures ModeCode(m) == p.stat & 3 <==> m == LcdMode(p)
  {
  }

  /** Video RAM is visible in H-Blank and V-Blank only, that is, exactly
      when the status register's mode field is 0 or 1. */
  predicate IsVramAccessible(p: Ppu)
    ensures IsVramAccessible(p) <==> p.stat & 3 <= 1
  {
    LcdMode(p) == HBlank || LcdMode(p) == VBlank
  }

  predicate InVram(addr: u16) {
    0x8000 <= addr as int <= 0x9FFF
  }

  /** The array index of a video RAM address: `addr - 0x8000` on 16 bits,
      which underflows below 0x8000, and must then lie inside the array. */
  function VramIndex(addr: u16): (r: Result<nat>)
    ensures r.Ok? <==> InVram(addr)
    ensures r.Ok? ==> r.value == addr as int - 0x8000 && r.value < VRAM_SIZE
  {
    var index := addr as int - 0x8000;
    if index < 0 then Err(ArithmeticOverflow)
    else if index < VRAM_SIZE then Ok(index)
    else Err(OutOfBounds(index))
  }

  /** `read_vram`: 0xFF while inaccessible; otherwise the byte at
      `addr - 0x8000`, where an address below 0x8000 underflows and one past
      0x9FFF indexes past the end. */
  function ReadVram(p: Ppu, addr: u16): (r: Result<u8>)
    ensures !IsVramAccessible(p) ==> r == Ok(0xFF)
    ensures IsVramAccessible(p) ==> (r.Ok? <==> InVram(addr))
    ensures IsVramAccessible(p) && InVram(addr) ==> r.value == p.vram[addr as int - 0x8000]
    ensures IsVramAccessible(p) && addr as int < 0x8000 ==> r == Err(ArithmeticOverflow)
    ensures IsVramAccessible(p) && addr as int > 0x9FFF ==> r == Err(OutOfBounds(addr as int - 0x8000))
  {
    if IsVramAccessible(p) then
      var index :- VramIndex(addr);
      Ok(p.vram[index])
    else
      Ok(0xFF)
  }

  /** `write_vram`: dropped while inaccessible; otherwise it stores the byte
      at `addr - 0x8000`, with the same faults as `ReadVram`. */
  function WriteVram(p: Ppu, addr: u16, val: u8): (r: Result<Ppu>)
    ensures !IsVramAccessible(p) ==> r == Ok(p)
    ensures IsVramAccessible(p) ==> (r.Ok? <==> InVram(addr))
    ensures IsVramAccessible(p) && addr as int < 0x8000 ==> r == Err(ArithmeticOverflow)
    ensures IsVramAccessible(p) && addr as int > 0x9FFF ==> r == Err(OutOfBounds(addr as int - 0x8000))
    ensures r.Ok? ==> r.value.(vram := p.vram) == p
  {
    if IsVramAccessible(p) then
      var index :- VramIndex(addr);
      Ok(p.(vram := p.vram[index := val]))
    else
      Ok(p)
  }

  /** An accessible write at a video RAM address replaces exactly the byte
      at `addr - 0x8000` and keeps the status register, so the memory stays
      accessible. */
  lemma WriteVramStores(p: Ppu, addr: u16, val: u8)
    requires IsVramAccessible(p) && InVram(addr)
    ensures WriteVram(p, addr, val) == Ok(p.(vram := p.vram[addr as int - 0x8000 := val]))
    ensures IsVramAccessible(WriteVram(p, addr, val).value)
  {
    assert VramIndex(addr) == Ok(addr as int - 0x8000);
  }

  /** A video RAM write is read back while the memory is accessible. */
  lemma VramWriteThenRead(p: Ppu, addr: u16, val: u8)
    requires IsVramAccessible(p) && InVram(addr)
    ensures WriteVram(p, addr, val).Ok?
    ensures ReadVram(WriteVram(p, addr, val).value, addr) == Ok(val)
  {
    WriteVramStores(p, addr, val);
  }

  /** A video RAM write leaves every other video RAM byte as it was. */
  lemma VramWriteKeepsOthers(p: Ppu, addr: u16, val: u8, other: u16)
    requires IsVramAccessible(p) && InVram(addr) && InVram(other) && other as int != addr as int
    ensures WriteVram(p, addr, val).Ok?
    ensures ReadVram(WriteVram(p, addr, val).value, other) == ReadVram(p, other)
  {
    WriteVramStores(p, addr, val);
  }

  /** The eleven register addresses: 0xFF40..0xFF45 and 0xFF47..0xFF4B
      (0xFF46, the sprite DMA register, is not one of them). */
  predicate IsRegister(addr: u16) {
    (LCDC <= addr <= LYC) || (BGP <= addr <= WX)
  }

  /** `read_reg`: a register, or video RAM through `ReadVram`; anything else
      is fatal. */
  function ReadReg(p: Ppu, addr: u16): (r: Result<u8>)
    ensures InVram(addr) ==> r == ReadVram(p, addr)
    ensures !IsRegister(addr) && !InVram(addr) ==> r == Err(InvalidLcdAccess(addr))
    ensures IsRegister(addr) ==> r.Ok?
    ensures addr == LCDC ==> r == Ok(p.lcdc)
    ensures addr == STAT ==> r == Ok(p.stat)
    ensures addr == SCY ==> r == Ok(p.scy)
    ensures addr == SCX ==> r == Ok(p.scx)
    ensures addr == LY ==> r == Ok(p.ly)
    ensures addr == LYC ==> r == Ok(p.lyc)
    ensures addr == BGP ==> r == Ok(p.bgp)
    ensures addr == OBP0 ==> r == Ok(p.obp0)
    ensures addr == OBP1 ==> r == Ok(p.obp1)
    ensures addr == WY ==> r == Ok(p.wy)
    ensures addr == WX ==> r == Ok(p.wx)
  {
    if addr == LCDC then Ok(p.lcdc)
    else if addr == STAT then Ok(p.stat)
    else if addr == SCY then Ok(p.scy)
    else if addr == SCX then Ok(p.scx)
    else if addr == LY then Ok(p.ly)
    else if addr == LYC then Ok(p.lyc)
    else if addr == BGP then Ok(p.bgp)
    else if addr == OBP0 then Ok(p.obp0)
    else if addr == OBP1 then Ok(p.obp1)
    else if addr == WY then Ok(p.wy)
    else if addr == WX then Ok(p.wx)
    else if InVram(addr) then ReadVram(p, addr)
    else Err(InvalidLcdAccess(addr))
  }

  /** `write_reg`: a register; anything else, video RAM included, is fatal.
      Video RAM is never changed through this path. */
  function WriteReg(p: Ppu, addr: u16, val: u8): (r: Result<Ppu>)
    ensures r.Ok? <==> IsRegister(addr)
    ensures r.Err? ==> r.fault == InvalidLcdAccess(addr)
    ensures r.Ok? ==> r.value.vram == p.vram
  {
    if addr == LCDC then Ok(p.(lcdc := val))
    else if addr == STAT then Ok(p.(stat := val))
    else if addr == SCY then Ok(p.(scy := val))
    else if addr == SCX then Ok(p.(scx := val))
    else if addr == LY then Ok(p.(ly := val))
    else if addr == LYC then Ok(p.(lyc := val))
    else if addr == BGP then Ok(p.(bgp := val))
    else if addr == OBP0 then Ok(p.(obp0 := val))
    else if addr == OBP1 then Ok(p.(obp1 := val))
    else if addr == WY then Ok(p.(wy := val))
    else if addr == WX then Ok(p.(wx := val))
    else Err(InvalidLcdAccess(addr))
  }

  /** A register write is read back, and every other register reads as
      before. */
  lemma RegisterWriteThenRead(p: Ppu, addr: u16, val: u8, other: u16)
    requires IsRegister(addr) && IsRegister(other) && other != addr
    ensures ReadReg(WriteReg(p, addr, val).value, addr) == Ok(val)
    ensures ReadReg(WriteReg(p, addr, val).value, other) == ReadReg(p, other)
  {
  }
}

=== FILE: registers.dfy ===
/** The CPU register file: seven 8-bit general registers, the flag byte `f`,
    and the 16-bit stack pointer and program counter, with the packed
    16-bit pair views AF, BC, DE and HL.
 */
module RegisterFile {
  import opened Types

  datatype Registers = Registers(
    a: u8, f: u8,
    b: u8, c: u8,
    d: u8, e: u8,
    h: u8, l: u8,
    sp: u16, pc: Pc)

  /** The four flags of the flag byte. */
  datatype Flag = Z | N | H | C

  /** The all-zero register file the emulator starts from. */
  function New(): (r: Registers)
    ensures GetAF(r) == 0 && GetBC(r) == 0 && GetDE(r) == 0 && GetHL(r) == 0
    ensures r.sp == 0 && r.pc == 0
    ensures r.f == 0 && forall fl :: !GetFlag(r, fl)
  {
    Registers(0, 0, 0, 0, 0, 0, 0, 0, 0, 0)
  }

  /* ---- Packing two bytes into a word ---- */

  /** `(hi as u16) << 8 | (lo as u16)`. */
  function Pair(hi: u8, lo: u8): u16 {
    ((hi as u16) << 8) | (lo as u16)
  }

  /** `(v >> 8) as u8`. */
  function High(v: u16): u8 {
    (v >> 8) as u8
  }

  /** `v as u8`: truncation to the low byte. */
  function Low(v: u16): u8 {
    (v & 0xFF) as u8
  }

  /** Splitting a packed word gives back its two bytes. */
  lemma PairSplit(hi: u8, lo: u8)
    ensures High(Pair(hi, lo)) == hi && Low(Pair(hi, lo)) == lo
  {
  }

  /** Packing the two halves of a word gives back the word. */
  lemma SplitPair(v: u16)
    ensures Pair(High(v), Low(v)) == v
  {
  }

  /* ---- Pair getters ---- */

  /** AF: the accumulator over the flag byte, whose low nibble is masked off. */
  function GetAF(r: Registers): (v: u16)
    ensures High(v) == r.a
    ensures Low(v) == r.f & 0xF0
    ensures v & 0x000F == 0
  {
    Pair(r.a, r.f & 0xF0)
  }

  function GetBC(r: Registers): (v: u16)
    ensures High(v) == r.b && Low(v) == r.c
  {
    Pair(r.b, r.c)
  }

  function GetDE(r: Registers): (v: u16)
    ensures High(v) == r.d && Low(v) == r.e
  {
    Pair(r.d, r.e)
  }

  function GetHL(r: Registers): (v: u16)
    ensures High(v) == r.h && Low(v) == r.l
  {
    Pair(r.h, r.l)
  }

  /* ---- Setters; each changes only the registers it names ---- */

  /** Stores the high nibble of `value` in the flag byte. */
  function SetF(r: Registers, value: u8): (r': Registers)
    ensures r' == r.(f := r'.f)
    ensures r'.f & 0x0F == 0 && r'.f >> 4 == value >> 4
    ensures GetAF(r') == Pair(r.a, value & 0xF0)
  {
    r.(f := value & 0xF0)
  }

  function SetAF(r: Registers, value: u16): (r': Registers)
    ensures r' == r.(a := r'.a, f := r'.f)
    ensures GetAF(r') == value & 0xFFF0
    ensures r'.f & 0x0F == 0
  {
    r.(a := High(value), f := Low(value) & 0xF0)
  }

  function SetBC(r: Registers, value: u16): (r': Registers)
    ensures r' == r.(b := r'.b, c := r'.c)
    ensures GetBC(r') == value
  {
    r.(b := High(value), c := Low(value))
  }

  function SetDE(r: Registers, value: u16): (r': Registers)
    ensures r' == r.(d := r'.d, e := r'.e)
    ensures GetDE(r') == value
  {
    r.(d := High(value), e := Low(value))
  }

  function SetHL(r: Registers, value: u16): (r': Registers)
    ensures r' == r.(h := r'.h, l := r'.l)
    ensures GetHL(r') == value
  {
    r.(h := High(value), l := Low(value))
  }

  /** Writing a pair with the value it already reads changes nothing. */
  lemma PairSetGet(r: Registers)
    ensures SetBC(r, GetBC(r)) == r
    ensures SetDE(r, GetDE(r)) == r
    ensures SetHL(r, GetHL(r)) == r
  {
    PairSplit(r.b, r.c);
    PairSplit(r.d, r.e);
    PairSplit(r.h, r.l);
  }

  /* ---- Flags ---- */

  /** The flag masks exactly as the emulator declares them: each sits one bit
      below its place in the hardware's flag byte (see `HardwareMask`). */
  function Mask(fl: Flag): u8 {
    match fl
    case Z => 0x40
    case N => 0x20
    case H => 0x10
    case C => 0x08
  }

  /** `f & mask > 0`. Each mask is a single bit, so a flag reads set
      exactly when its whole mask is present in F. */
  predicate GetFlag(r: Registers, fl: Flag)
    ensures GetFlag(r, fl) <==> r.f & Mask(fl) == Mask(fl)
  {
    r.f & Mask(fl) > 0
  }

  /** `f |= mask` when setting, `f &= !mask` when clearing. */
  function SetFlag(r: Registers, fl: Flag, on: bool): (r': Registers)
    ensures r'.(f := r.f) == r
    ensures GetFlag(r', fl) == on
    ensures r'.f & !Mask(fl) == r.f & !Mask(fl)
  {
    r.(f := WithBit(r.f, Mask(fl), on))
  }

  /** `f | m` when `on`, else `f & !m`: the bits of `m` end all set or all
      clear, and the bits outside `m` are kept. */
  function WithBit(f: u8, m: u8, on: bool): (g: u8)
    ensures g & m == (if on then m else 0)
    ensures g & !m == f & !m
  {
    if on then f | m else f & !m
  }

  /** The four masks are distinct single bits, so setting or clearing one
      flag leaves the other three as they were. */
  lemma SetFlagKeepsOtherFlags(r: Registers, fl: Flag, on: bool, g: Flag)
    requires g != fl
    ensures GetFlag(SetFlag(r, fl, on), g) == GetFlag(r, g)
  {
    match g
    case Z => assert Mask(g) == 0x40;
    case N => assert Mask(g) == 0x20;
    case H => assert Mask(g) == 0x10;
    case C => assert Mask(g) == 0x08;
  }

  /** The carry flag's mask 0x08 lies in the nibble `get_af` and `set_f`
      discard: setting or clearing C is invisible through AF, and writing AF
      back (as a push and pop of AF would) always loses C. */
  lemma CarryInvisibleInAF(r: Registers, on: bool)
    ensures GetAF(SetFlag(r, C, on)) == GetAF(r)
    ensures var r' := SetFlag(r, C, true);
            GetFlag(r', C) && !GetFlag(SetAF(r', GetAF(r')), C)
  {
  }

  /* ---- The flag layout the hardware uses ---- */

  /** Z, N, H and C in bits 7, 6, 5 and 4: the flag byte's high nibble, the
      part `get_af` and `set_f` keep. */
  function HardwareMask(fl: Flag): u8 {
    match fl
    case Z => 0x80
    case N => 0x40
    case H => 0x20
    case C => 0x10
  }

  predicate GetFlagHardware(r: Registers, fl: Flag) {
    r.f & HardwareMask(fl) > 0
  }

  /** `set_flag` with the hardware masks: it keeps the flag byte's low nibble
      zero, no other flag moves, and every flag survives a round trip
      through AF. */
  function SetFlagHardware(r: Registers, fl: Flag, on: bool): (r': Registers)
    requires r.f & 0x0F == 0
    ensures r'.(f := r.f) == r
    ensures GetFlagHardware(r', fl) == on
    ensures forall g: Flag :: g != fl ==> GetFlagHardware(r', g) == GetFlagHardware(r, g)
    ensures r'.f & 0x0F == 0
    ensures SetAF(r', GetAF(r')) == r'
  {
    var m := HardwareMask(fl);
    r.(f := if on then r.f | m else r.f & !m)
  }
}

=== FILE: timer.dfy ===
/** The timer: a free-running divider byte, a counter byte (TIMA) with its
    reload value (TMA), a control byte (TAC), and an unbounded count of the
    cycles stepped so far. The control byte is used whole as the rate
    selector; there is no enable bit. */
module Timer {
  import opened Types

  const DIV: u16 := 0xFF04
  const TIMA: u16 := 0xFF05
  const TMA: u16 := 0xFF06
  const TAC: u16 := 0xFF07

  /** The period the divider uses as written: `cycles % 0xFF`. */
  const DIV_PERIOD_AS_WRITTEN: nat := 0xFF

  /** The divider's period on the hardware: 256 cycles. */
  const DIV_PERIOD: nat := 256

  datatype Timer = Timer(div: u8, tima: u8, tma: u8, tac: u8, cycles: nat)

  function New(): (t: Timer)
    ensures t.div == 0 && t.tima == 0 && t.tma == 0 && t.tac == 0 && t.cycles == 0
    ensures TacCycles(t.tac) == Ok(1024)
  {
    Timer(0, 0, 0, 0, 0)
  }

  predicate IsRegister(addr: u16) {
    DIV <= addr <= TAC
  }

  /** A register read; any address outside 0xFF04..0xFF07 is fatal. */
  function Read(t: Timer, addr: u16): (r: Result<u8>)
    ensures r.Ok? <==> IsRegister(addr)
    ensures r.Err? ==> r.fault == InvalidTimerAddress(addr)
    ensures addr == DIV ==> r == Ok(t.div)
    ensures addr == TIMA ==> r == Ok(t.tima)
    ensures addr == TMA ==> r == Ok(t.tma)
    ensures addr == TAC ==> r == Ok(t.tac)
  {
    if addr == DIV then Ok(t.div)
    else if addr == TIMA then Ok(t.tima)
    else if addr == TMA then Ok(t.tma)
    else if addr == TAC then Ok(t.tac)
    else Err(InvalidTimerAddress(addr))
  }

  /** A register write. Writing the divider resets it to 0 whatever the
      value; the other three store the value. */
  function Write(t: Timer, addr: u16, val: u8): (r: Result<Timer>)
    ensures r.Ok? <==> IsRegister(addr)
    ensures r.Err? ==> r.fault == InvalidTimerAddress(addr)
    ensures r.Ok? ==> r.value.cycles == t.cycles
  {
    if addr == DIV then Ok(t.(div := 0))
    else if addr == TIMA then Ok(t.(tima := val))
    else if addr == TMA then Ok(t.(tma := val))
    else if addr == TAC then Ok(t.(tac := val))
    else Err(InvalidTimerAddress(addr))
  }

  /** What a read returns after a write: 0 for the divider, the written
      value for the other three, and the other registers read as before. */
  lemma WriteThenRead(t: Timer, addr: u16, val: u8, other: u16)
    requires IsRegister(addr) && IsRegister(other) && other != addr
    ensures Read(Write(t, addr, val).value, addr) == Ok(if addr == DIV then 0 else val)
    ensures Read(Write(t, addr, val).value, other) == Read(t, other)
  {
  }

  /** The counter's period, selected by the whole control byte: 0 -> 1024,
      1 -> 16, 2 -> 64, 3 -> 256; any other value is fatal. */
  function TacCycles(tac: u8): (r: Result<nat>)
    ensures r.Ok? <==> tac <= 3
    ensures r.Err? ==> r.fault == InvalidTac(tac)
    ensures r.Ok? ==> r.value in {16, 64, 256, 1024}
    ensures tac <= 3 ==> r == Ok([1024, 16, 64, 256][tac as int])
  {
    if tac == 0 then Ok(1024)
    else if tac == 1 then Ok(16)
    else if tac == 2 then Ok(64)
    else if tac == 3 then Ok(256)
    else Err(InvalidTac(tac))
  }

  /** One cycle with the divider stepping every `divPeriod` cycles: the
      divider first (wrapping), then the counter at its own period, where a
      counter at 0xFF reloads from TMA instead of wrapping to 0. */
  function Step(t: Timer, divPeriod: nat): (r: Result<Timer>)
    requires divPeriod > 0
    ensures r.Ok? <==> t.tac <= 3
    ensures r.Err? ==> r.fault == InvalidTac(t.tac)
    ensures r.Ok? ==> r.value.cycles == t.cycles + 1 && r.value.tma == t.tma && r.value.tac == t.tac
    ensures r.Ok? ==> (r.value.div == t.div + 1 <==> t.cycles % divPeriod == 0)
    ensures r.Ok? ==> (r.value.div == t.div <==> t.cycles % divPeriod != 0)
    ensures r.Ok? && t.cycles % TacCycles(t.tac).value == 0 ==>
              r.value.tima == (if t.tima == 0xFF then t.tma else t.tima + 1)
    ensures r.Ok? && t.cycles % TacCycles(t.tac).value != 0 ==> r.value.tima == t.tima
  {
    var div := if t.cycles % divPeriod == 0 then t.div + 1 else t.div;
    var period :- TacCycles(t.tac);
    var tima :=
      if t.cycles % period == 0 then
        if t.tima == 0xFF then t.tma else t.tima + 1
      else t.tima;
    Ok(Timer(div, tima, t.tma, t.tac, t.cycles + 1))
  }

  /** `do_cycles` as written: the divider steps when `cycles % 0xFF == 0`. */
  function DoCycles(t: Timer): (r: Result<Timer>)
    ensures r.Ok? <==> t.tac <= 3
    ensures r.Ok? ==> r.value.cycles == t.cycles + 1 && r.value.tma == t.tma && r.value.tac == t.tac
    ensures r.Ok? ==> (r.value.div != t.div <==> t.cycles % 0xFF == 0)
  {
    Step(t, DIV_PERIOD_AS_WRITTEN)
  }

  /** `do_cycles` with the divider stepping once every 256 cycles. */
  function DoCyclesCorrected(t: Timer): (r: Result<Timer>)
    ensures r.Ok? <==> t.tac <= 3
    ensures r.Ok? ==> r.value.cycles == t.cycles + 1 && r.value.tma == t.tma && r.value.tac == t.tac
    ensures r.Ok? ==> (r.value.div != t.div <==> t.cycles % 256 == 0)
  {
    Step(t, DIV_PERIOD)
  }

  /* ---- Many cycles ---- */

  /** `n` steps with divider period `p`, stopping at the first fault. */
  function Run(t: Timer, n: nat, p: nat): Result<Timer>
    requires p > 0
    decreases n
  {
    if n == 0 then Ok(t)
    else
      var t1 :- Step(t, p);
      Run(t1, n - 1, p)
  }

  /** How many of the cycle counts `c, c + 1, ..., c + n - 1` are multiples
      of `p`: the number of divider steps in `n` cycles from count `c`. */
  function Ticks(c: nat, n: nat, p: nat): nat
    requires p > 0
    decreases n
  {
    if n == 0 then 0
    else (if c % p == 0 then 1 else 0) + Ticks(c + 1, n - 1, p)
  }

  /** The byte `d` incremented `k` times, wrapping from 0xFF to 0. */
  function Bump(d: u8, k: nat): u8
    decreases k
  {
    if k == 0 then d else Bump(d + 1, k - 1)
  }

  /** Over `n` cycles with a valid control byte nothing fails, the cycle
      count grows by `n`, TMA and TAC are kept, and the divider has been
      incremented once per multiple of the period it passed. */
  lemma {:induction false} RunDivider(t: Timer, n: nat, p: nat)
    requires p > 0 && t.tac <= 3
    ensures Run(t, n, p).Ok?
    ensures Run(t, n, p).value.cycles == t.cycles + n
    ensures Run(t, n, p).value.tma == t.tma && Run(t, n, p).value.tac == t.tac
    ensures Run(t, n, p).value.div == Bump(t.div, Ticks(t.cycles, n, p))
    decreases n
  {
    if n != 0 {
      var t1 := Step(t, p).value;
      assert Run(t, n, p) == Run(t1, n - 1, p);
      RunDivider(t1, n - 1, p);
      if t.cycles % p == 0 {
        assert t1.div == t.div + 1;
      } else {
        assert t1.div == t.div;
      }
    }
  }

  /** Ticks over consecutive windows add up. */
  lemma {:induction false} TicksAppend(c: nat, a: nat, b: nat, p: nat)
    requires p > 0
    ensures Ticks(c, a + b, p) == Ticks(c, a, p) + Ticks(c + a, b, p)
    decreases a
  {
    if a != 0 {
      TicksAppend(c + 1, a - 1, b, p);
    }
  }

  /** The cycle counts strictly after a multiple of `p` and before the next
      one are not multiples (for the two periods in use). */
  lemma {:induction false} NoTicksInside(c: nat, k: nat, n: nat, p: nat)
    requires p == DIV_PERIOD_AS_WRITTEN || p == DIV_PERIOD
    requires c % p == 0 && 0 < k && k + n <= p
    ensures Ticks(c + k, n, p) == 0
    decreases n
  {
    if n != 0 {
      if p == DIV_PERIOD_AS_WRITTEN {
        assert (c + k) % 255 == k;
      } else {
        assert (c + k) % 256 == k;
      }
      NoTicksInside(c, k + 1, n - 1, p);
    }
  }

  /** With the corrected period, every aligned window of 256 cycles steps the
      divider exactly once. */
  lemma DividerOncePer256(c: nat)
    requires c % 256 == 0
    ensures Ticks(c, 256, DIV_PERIOD) == 1
  {
    NoTicksInside(c, 1, 255, DIV_PERIOD);
  }

  /** As written, any window of 256 cycles that starts on a multiple of
      0xFF holds two multiples of 0xFF: its first and its last count. */
  lemma TwoTicksAsWritten(c: nat)
    requires c % 255 == 0
    ensures Ticks(c, 256, DIV_PERIOD_AS_WRITTEN) == 2
  {
    TicksAppend(c, 255, 1, DIV_PERIOD_AS_WRITTEN);
    NoTicksInside(c, 1, 254, DIV_PERIOD_AS_WRITTEN);
    assert Ticks(c + 255, 1, DIV_PERIOD_AS_WRITTEN) == 1 by {
      assert (c + 255) % 255 == 0;
    }
  }

  /** As written, the first 256 cycles of a timer started at count 0 step
      the divider twice, at counts 0 and 255, so it reads 2 where a
      256-cycle divider reads 1. */
  lemma DividerTwiceInFirst256(t: Timer)
    requires t.cycles == 0 && t.div == 0 && t.tac <= 3
    ensures Run(t, 256, DIV_PERIOD_AS_WRITTEN).Ok? && Run(t, 256, DIV_PERIOD_AS_WRITTEN).value.div == 2
    ensures Run(t, 256, DIV_PERIOD).Ok? && Run(t, 256, DIV_PERIOD).value.div == 1
  {
    TwoTicksAsWritten(t.cycles);
    RunDivider(t, 256, DIV_PERIOD_AS_WRITTEN);
    assert Bump(t.div, 2) == 2;
    DividerOncePer256(t.cycles);
    RunDivider(t, 256, DIV_PERIOD);
    assert Bump(t.div, 1) == 1;
  }
}

=== FILE: types.dfy ===
/** Machine-word types and the failure datatype shared by every component.

    The emulator aborts (panics) at a handful of precise points; the model
    replaces each abort by an explicit `Err` carrying what went wrong, so that
    every operation is a total function.
 */
module Types {

  /** An 8-bit register or memory cell (Rust `u8`); arithmetic on it wraps. */
  type u8 = bv8

  /** A 16-bit address or register pair (Rust `u16`). */
  type u16 = bv16

  /** The program counter (Rust `u16`), kept as a bounded integer so that
      its checked increments are integer arithmetic; the bus sees it as a
      `u16` address. */
  type Pc = n: nat | n <= 0xFFFF

  /** The reasons the emulator stops. */
  datatype Fault =
    | OutOfBounds(index: int)                   // index past the end of a byte image or array
    | BankingUnsupported(addr: u16)             // switchable ROM bank window 0x4000..0x7FFF
    | InvalidCgbFlag(flag: u8)                  // header byte 0x143 is neither 0x00 nor 0x80
    | UnsupportedCartridgeType(kind: u8)        // header byte 0x147 names no implemented controller
    | RomSizeShiftOverflow(size: u8)            // `0x8000 << size` with a shift of 32 or more
    | UnimplementedOpcode(opcode: u8, pc: Pc)   // no handler for the fetched opcode
    | ArithmeticOverflow                        // a checked `+` or `-` left the range of its integer type
    | InvalidTimerAddress(addr: u16)
    | InvalidTac(tac: u8)
    | InvalidLcdAccess(addr: u16)
    | InvalidColor(color: u8)

  /** A value or the fault that stopped the emulator; usable with `:-`. */
  datatype Result<+T> = Ok(value: T) | Err(fault: Fault) {

    predicate IsFailure() {
      Err?
    }

    function PropagateFailure<U>(): Result<U>
      requires Err?
    {
      Err(fault)
    }

    function Extract(): T
      requires Ok?
    {
      value
    }
  }

  /** Checked 16-bit addition, as Rust's `+` on `u16` in a debug build:
      a sum past 0xFFFF aborts instead of wrapping. */
  function CheckedAdd(x: Pc, n: nat): (r: Result<Pc>)
    ensures r.Ok? <==> x + n <= 0xFFFF
    ensures r.Ok? ==> r.value == x + n
    ensures r.Err? ==> r.fault == ArithmeticOverflow
  {
    if x + n <= 0xFFFF then Ok(x + n) else Err(ArithmeticOverflow)
  }

  /** Checked 16-bit subtraction, as Rust's `-` on `u16` in a debug build. */
  function CheckedSub(x: u16, n: u16): (r: Result<u16>)
    ensures r.Ok? <==> n <= x
    ensures r.Ok? ==> r.value == x - n
    ensures r.Err? ==> r.fault == ArithmeticOverflow
  {
    if n <= x then Ok(x - n) else Err(ArithmeticOverflow)
  }
}
